=== FILE: README.md ===
# plunker-importer core, modelled in Dafny

plunker-importer migrates legacy Plunker records from MongoDB into Elasticsearch and
a LevelDB-backed git object store. This project models the logic of `index.js` that
decides what gets written:

- **Revision replay** (`parsePlunkVersions`). The record's current files become a
  working set (filename to content). The stored history is replayed from its last
  entry down to its first. Before each revision's change records are applied, the
  working set is hashed into a tree. A commit is saved when there is no commit yet or
  when the tree sha differs from the last commit's. Every commit's objects pass
  through a run-wide seen-filter before they are written.
- **Change dispatch** (`parseRevision`, `patch`, `rename`, `remove`). A change record
  has optional `fn`, `pn` and `pl` fields. Which of them are truthy decides between
  patch-and-rename, create, delete, or nothing.
- **Package extraction** (`findPackages`). The `data-require` / `data-semver`
  attribute matches in the tree's HTML files become `{name, semver, semverRange}`
  references, keyed by name, with the last occurrence winning.
- **Record projection** (`parsePlunk`). A legacy record and its replay become the
  indexed document: counts, tags, collections and shas.
- **Batching and checkpoints** (`savePlunks`, the `Pull.reduce` step, the progress
  file). Documents are grouped into batches of 16. Each batch reports its size and
  latest `updated_at`. The reduce step keeps a running count and watermark. It
  overwrites the progress file whenever the count is a multiple of 160, and once more
  on success. A restart reads the file back and selects the records with
  `updated_at >=` that value.

Modules, one per file:

| Module | What it holds |
|---|---|
| `Wrappers` | `Option` and JavaScript truthiness of optional strings. |
| `Decimal` | Decimal text of naturals, and `parseInt`. |
| `Snapshot` | The working set and the change records. |
| `Objects` | Trees, commits, and the `./lib/git` operations. |
| `Dedup` | The seen-filter and the object store. |
| `Replay` | `parseRevision`, the replay fold and `parsePlunkVersions`. |
| `Packages` | `findPackages`. |
| `Projection` | `parsePlunk`. |
| `Pipeline` | `savePlunks`, the reduce step, the whole run, and resuming. |

Everything `index.js` calls outside itself is a parameter:

- tree and commit hashing, `commit.getObjects()` and `Git.walk`, as the fields of
  `Objects.Git`;
- googlediff's patch application, as `Snapshot.PatchApply`;
- `Semver.valid` and `Pad.pad`, as `Packages.Semver`;
- the package-reference regular expression, as a function from file content to its
  matches.

Three properties of these parameters are assumed where a lemma needs them. Each is
either a `requires` of that lemma or built into a parameter's type:

- `Objects.TreeShaInjective(git)`: distinct tree listings hash to distinct shas. It
  is a `requires` of `Replay.EmitsIffFilesChanged`, and the antecedent of the
  second half of `Objects.TreeShaDecidesFiles`.
- `Dedup.Agrees(store, objects)`: an object already in the store under a sha holds
  the same content the commit gives for that sha, which is what content addressing
  guarantees. It is a `requires` of `Dedup.SavedObjectsRetrievable`.
- `Objects.Git.commitSha` takes only the tree sha, message, author and parent shas.
  A commit sha that also depended on a clock or a committer timestamp is not
  modelled. This is what makes two replays that save the same trees with the same
  messages and parents save equal commits, as in `Replay.FirstRevisionNeverCommitted`.

## Model

| member | source | states |
|---|---|---|
| Replay.ParsePlunkVersions | index.js:55-163 | Version equals the number of commits saved. It is 1 without history, and between 1 and the history length otherwise. The returned commit is the last one saved. The commits form a linear chain. The seen-filter only grows. From a store that holds everything marked seen, every object of every commit ends up marked seen and stored. Without history the tree holds exactly the record's files; with history its sha is that of the working set with every revision but `history[0]` applied. |
| Replay.ParseRevision | index.js:100-131 | The tree is taken before the revision's changes, which then reach the working set. A commit is saved exactly when there is no last commit or the tree sha changed. A saved commit has message "Initial commit" / "Revision n", parents `[last.sha]` or `[]`, and its objects go through the filter. Otherwise version, chain, last commit and store are unchanged. |
| Replay.SaveCommit | index.js:83-98 | The commit becomes the last commit and is appended to the chain, the version goes up by one, and the working set is untouched. Every object of the commit is marked seen; when the store held everything marked seen before, it does afterwards, and holds every object of the commit. |
| Replay.MessageFor | index.js:101 | Version 0 gets "Initial commit". Any later version gets "Revision " followed by digits only, with no leading zero, which `parseInt` reads back as that version. |
| Replay.MessageDeterminedByVersion | index.js:101 | Those clauses leave exactly one message per later version: any text meeting them is the message. |
| Replay.Replay | index.js:75 | The working set ends with every revision applied, last index first. Version grows by at most one per revision. A non-empty history always leaves a last commit, and an empty one changes nothing. Earlier commits are kept as a prefix, and the seen-filter only grows. |
| Replay.ReplayKeepsChain | index.js:83-109 | Whatever the history, the saved commits stay one linear chain. Version counts them, `lastCommit` is the newest, and every object of every commit is marked seen and stored. |
| Replay.LastTreeBeforeFirstRevision | index.js:69-112 | After a non-empty replay, the last commit's tree sha is that of the working set with every revision except `history[0]` applied. |
| Replay.CommitTreesAreSnapshots | index.js:100-109 | Every saved commit holds the working set exactly as some revision's step found it, with the revisions above it applied and itself not. |
| Replay.FirstRevisionNeverCommitted | index.js:75-112 | Two histories differing only in `history[0]` save the same commits, reach the same version and leave the same object store. |
| Replay.UnchangedRevisionCollapses | index.js:104 | A revision whose changes leave the working set unchanged is followed by no commit. |
| Replay.EmitsIffFilesChanged | index.js:102-104 | Under collision-free tree hashing, a step saves a commit exactly when the working set differs from the last commit's tree listing. |
| Replay.MessagesDistinct | index.js:101 | Distinct versions get distinct commit messages. |
| Replay.NoHistoryIsOneEmptyRevision | index.js:69-76 | A record without history gets the same result as one whose only revision has no changes. |
| Snapshot.FromFiles | index.js:61-63 | One key per filename, and the later of two same-named files wins. |
| Snapshot.ApplyChange | index.js:112-130 | `pn` with `fn`: when `fn` exists, patch it if `pl` is truthy, then move it to `pn`; when it is missing, nothing. `pn` alone: create or overwrite `pn` with `pl`. `fn` alone: delete `fn`. Neither: nothing. Files named by neither field keep their content. |
| Snapshot.ApplyChangeIsEdit | index.js:112-130 | The truthiness dispatch coincides with an independent definition by tagged edit (create, delete, move, modify, move-and-modify, none). |
| Snapshot.ApplyChanges | index.js:112-130 | Files no change names keep their content, and new names come only from the changes. The listed order is stated by `Snapshot.ApplyChangesAppend`. |
| Snapshot.ApplyChangesSingle | index.js:112-130 | Applying a one-change list is applying that change. |
| Snapshot.ApplyChangesAppend | index.js:112 | Applying `a + b` is applying `a` and then `b`, so the changes take effect in listed order. |
| Snapshot.ApplyRevisionsFrame | index.js:75 | Files no revision names keep their content, and every file afterwards was there before or is named by some revision. |
| Snapshot.ApplyRevisionsAppend | index.js:75 | Revisions apply last index first: replaying `older + newer` is replaying `newer` and then `older`. |
| Snapshot.Rename | index.js:143-150 | A missing source changes nothing. Otherwise the source key is gone and the target holds the source's content, replacing any old target. Every other file is unchanged. |
| Snapshot.RenameBack | index.js:143-150 | Renaming onto a free name and back restores the working set. |
| Snapshot.Patch | index.js:152-157 | The same keys. The patched file's content goes through the patch applier, and a missing file changes nothing. |
| Snapshot.Remove | index.js:159-161 | The file is gone and every other file is unchanged. |
| Objects.ToFilesArray | index.js:133-141 | Each file is listed with a "/"-prefixed path and its content, and nothing else is listed. |
| Objects.ToFilesArrayInjective | index.js:133-141 | Distinct working sets have distinct listings. |
| Objects.TreeOf | index.js:102 | The tree is the hash of the working set's listing: every file appears with a "/"-prefixed path and its content, and every entry is such a file. |
| Objects.TreeShaDecidesFiles | index.js:102-104 | Equal working sets hash alike; under collision-free hashing, equal tree shas mean equal working sets. |
| Dedup.SaveObjects | index.js:83-94 | Every object of the commit is marked seen. Exactly the objects not seen before are written, with their content. A skipped write never changes what the store holds. |
| Dedup.SaveObjectsLoop | index.js:86-92 | The sha-by-sha loop gives the same store whatever order it visits the shas in. |
| Dedup.SavedObjectsRetrievable | index.js:83-94 | From a store that holds everything marked seen and agrees with the commit, every object of the commit can be read back afterwards. |
| Packages.PackageOf | index.js:176-196 | A match yields a reference exactly when its require is truthy, its semver is truthy and the semver is valid. Its name is the text before the first "@", its range the text after it ("*" when empty), and its version the padded valid version. |
| Packages.MatchRefs | index.js:175-198 | A file's matches yield exactly the references their `PackageOf` produces. |
| Packages.MatchRefsAppend | index.js:175 | Matches are read in order: those of `a + b` yield the references of `a`, then those of `b`. |
| Packages.MatchRefsSingle | index.js:175-196 | One match yields its `PackageOf` reference, or nothing. |
| Packages.RefsAppend | index.js:170 | Files are read in walking order: those of `a + b` yield the references of `a`, then those of `b`. |
| Packages.RefsSingle | index.js:170-175 | An HTML-named file yields its matches' references in order; any other file yields nothing. |
| Packages.LaterFileWins | index.js:195 | When the last match of a file walked later yields a reference, the result maps its name to it, whatever earlier files yield. |
| Packages.HtmlNameSuffixes | index.js:166-173 | Names ending in ".html" or ".HTM" are scanned; names ending in ".js" or ".htmlx" are not. |
| Packages.Split | index.js:182 | The parts contain no separator and join back into the string. |
| Packages.SplitHeadAndTail | index.js:182-190 | `parts.shift()` is the text before the first "@"; the rest joined with "@" is the text after it. |
| Packages.SplitJoin | index.js:182-190 | Splitting the join of separator-free parts gives the parts back. |
| Packages.Refs | index.js:170-198 | A reference is collected exactly when some HTML-named file has a match yielding it. |
| Packages.IndexByName | index.js:195 | One entry per name; each entry is the last reference with that name. |
| Packages.FindPackages | index.js:165-202 | A name is present exactly when some HTML file yields a reference with it, and it maps to the last reference with that name in `Packages.Refs`, whose order is walking order and then match order by `Packages.RefsAppend` and `Packages.MatchRefsAppend`. |
| Packages.ScriptTagExample | index.js:167-196 | `data-semver="1.2.3" data-require="foo@^1.0.0"` yields `foo` with range `^1.0.0` when the version is valid, and nothing otherwise. |
| Projection.ParsePlunk | index.js:211-254 | `revisions_count` is the replay's version: 1 without history, and at most the history length otherwise. `forks_count` is the number of forks (0 when absent). `collections` is `["plunker/public"]` exactly for public records. `tags` are the same tags, each once, ordered by where each first occurs. Falsy `fork_of`/`user` become null. The shas are the last commit's, and the packages are those of its tree. The id, title and timestamps come from the record (`viewed_at` is `updated_at`), a truthy `fork_of`/`user` is kept as it is, `views` and `thumbs` default to 0, comments and favorites are 0, and the queue is empty. The object store is the replay's, and a store holding everything marked seen still does afterwards. |
| Projection.Unique | index.js:221 | The same tags, without duplicates, never more of them, ordered by where each first occurs. |
| Projection.UniqueKeepsFirst | index.js:221 | `["a", "b", "a"]` becomes `["a", "b"]`: a repeated tag stays where it first appeared. |
| Projection.UniqueOfDistinct | index.js:221 | A duplicate-free tag list is kept as it is. |
| Projection.UniqueIdempotent | index.js:221 | Removing duplicates twice is removing them once. |
| Projection.NoHistoryDocument | index.js:211-232 | A record without history becomes a document with one revision. Its commit is a parentless "Initial commit" whose tree holds exactly the record's files. |
| Pipeline.SavePlunks | index.js:269-284 | The bulk body pairs an index action carrying the document's id with the document, for each document in order. The size is the batch length, and `updated_at` is the batch's watermark. |
| Pipeline.BatchWatermark | index.js:271-277 | The watermark is not negative, is at least every document's `updated_at`, and is 0 or one of them. |
| Pipeline.Latest | index.js:277 | The running maximum is at least its start and every timestamp, and is the start or one of them. |
| Pipeline.LatestAppend | index.js:403 | The watermark of a concatenation is reached in two steps. |
| Pipeline.ReduceStep | index.js:396-407 | `sum` grows by the batch size. `lastUpdate` is the larger of its old value and the batch's. The progress file is written exactly when the new sum is a multiple of `batchSize * 10`. |
| Pipeline.Reduce | index.js:396-407 | `sum` counts all documents and `lastUpdate` is the overall watermark. The file is written after the k-th batch exactly when the first k batches hold a multiple of `batchSize * 10` documents, and the value written is their watermark. Write positions strictly increase. |
| Pipeline.WrittenValuesNonDecreasing | index.js:403-416 | The values written to the progress file, followed by the final one, never decrease and are never negative. |
| Pipeline.FullBatchesCheckpointEveryTenth | index.js:394-405 | With every batch full, the file is written after every tenth batch and after no other. |
| Pipeline.CheckpointEvery160Documents | index.js:370-405 | With the importer's batch size of 16, the file is written after the k-th batch exactly when the first k batches hold a multiple of 160 documents. |
| Pipeline.SavedPrefix | index.js:408-414 | The batches the reduce step sees: the saved batches in order up to the first failure, which stops the stream. Each is the result of a `Saved` outcome at the same position, and when the prefix is shorter than the outcomes, the next outcome is a failure. |
| Pipeline.Run | index.js:386-424 | Exit code 0 exactly when no batch fails. On success the final watermark is written once more; on failure nothing more is written and the exit code is 1. The file only moves forward and never holds a negative value. |
| Pipeline.Group | index.js:394 | Consecutive groups of at most `n` items, all full except possibly the last, none empty, which flatten back to the input. |
| Pipeline.LatestOfSummaries | index.js:394-403 | The watermark over batch reports equals the watermark over the documents in them. |
| Pipeline.ReadCheckpoint | index.js:287-303 | A missing progress file, or text that parses to `NaN`, means no filter. |
| Pipeline.CheckpointRoundTrip | index.js:287 | A value written to the progress file is read back unchanged at the next start. |
| Pipeline.ResumeKeepsRest | index.js:299-303 | For ascending timestamps, the restart filter built from a prefix's watermark admits every record after that prefix. |
| Pipeline.CheckpointLosesNoRecord | index.js:287-405 | For records in ascending `updated_at` order, a value written after the k-th batch is the watermark of exactly the records those k batches saved. Their number is the reduce step's running `sum` at that moment. A restart from the value still selects every record not yet saved. |
| Pipeline.TotalSizeOfSummaries | index.js:394-397 | The sizes the batches report add up to the number of records in them. |
| Decimal.ParseIntOfNatToString | index.js:287 | `parseInt` of a natural's decimal text is that natural. |
| Decimal.CanonicalIsNatToString | index.js:287 | Digits without a leading zero are the decimal text of their own value, so `String` and `parseInt` are inverse on such text. |
| Decimal.NatToString | index.js:101 | JavaScript's number-to-text conversion for a non-negative integer, used for `"Revision " + version` and for the progress-file writes at index.js:405 and 416. The text is digits only, non-empty, without a leading zero, and at least two characters long exactly when the number is at least 10. |
| Decimal.NatToStringInjective | index.js:101 | Distinct versions have distinct decimal text. |
| Decimal.ParseInt | index.js:287 | `parseInt` gives NaN exactly when the text is empty or does not start with a digit. |

## Left out

- The MongoDB cursor source (`pullMongo`), the query and options objects, and `countAsync`. These are database I/O. The restart filter appears only as `Pipeline.ResumeIncludes`.
- Elasticsearch: index creation and its schema, the `es.bulk` call itself, and the unused `savePlunk` promise chain. These are network I/O; `Pipeline.SavePlunks` models the successful bulk write, and a failed one is a `Failed` batch outcome.
- LevelDB `batch.put`/`batch.write`, the progress file's actual reads and writes, `process.on` handlers, Memwatch, the five-minute exit timer and all logging. These are I/O. The progress file is modelled as the sequence of values written to it. `batch.write()` is asynchronous and unchecked; the model treats it as completed.
- `./lib/git` hashing, serialisation and walking, googlediff, `Semver.valid`, `Pad.pad` and the regular-expression engine. These are foreign code, taken as parameters.
- The Bloom filter's internals. It is modelled as the exact set of shas added. A real false positive would skip a write whose object was never stored, and the model does not capture that.
- Readme detection in `parsePlunk`: it depends on `Git.walk` order and a regex over names, so the document carries no `readme` field. The fields the source always sets to `null` (`deleted_at`, `session_id`) are omitted as well.
- Throughput and percentage output, `Date.now()`, and `Date` parsing. These are clocks and floating point. Timestamps are integers of milliseconds.
- Objects.TreeOf: the tree listing is a set, so listing order is not modelled; tree hashing is taken to be independent of it.
- Packages.FindPackages: the result is a map from name to reference, so the order of `_.values(refs)` is not modelled.
- Snapshot.ApplyChange: a create whose `pl` is absent stores the empty string; the source stores `undefined`.
- Snapshot.ApplyChange: patch-text parse errors are not modelled. For a change with truthy `fn`, `pn` and `pl`, the source runs googlediff's `patch_fromText(pl)` before it looks up `fn` (index.js:116). That call throws on text that is not in patch format, even when `fn` is missing. The exception ends the run with exit code 1 (index.js:411-414). The model takes the patch applier as a total parameter. A missing `fn` is a no-op, so a record with malformed patch text still migrates.
- Decimal.ParseInt: leading whitespace and signs, which `parseInt` accepts, are not modelled. The progress file only ever holds the non-negative values the run writes.
- Snapshot.FromFiles: the working set is a JavaScript plain object. A file named `__proto__` replaces the object's prototype instead of adding a key (index.js:62). The model treats it as an ordinary key.
- Snapshot.Rename: renaming onto `__proto__` replaces the prototype (index.js:148). `files[fn]` also finds inherited properties such as `constructor`, so a missing source with such a name is moved (index.js:144). The model treats every name as an ordinary key, and a missing name as missing.
- Snapshot.Patch: `files[fn]` finds inherited properties such as `constructor`, so a missing file with such a name is read and written (index.js:153). The model treats a missing name as missing.
- Packages.IndexByName: the package refs are a JavaScript plain object, and a package named `__proto__` replaces its prototype instead of adding an entry (index.js:195). The model treats it as an ordinary key.
- Projection.ParsePlunk: `views` and `thumbs` are whole numbers, so `parseInt` of the value or 0 is modelled as the value, or 0 when absent.

## Notes on index.js behaviour

- Patch results. `patch` keeps only element 0 of `patch_apply`'s result and never reads the per-hunk success flags (index.js:155). A patch that fails to apply leaves the file as the applier returns it, so the model has no patch-apply-error path. Malformed patch text is a different case: `patch_fromText` throws, and that is listed under "## Left out".
- Seen-filter false positives. A sha the Bloom filter wrongly reports as seen is neither written nor added (index.js:87-90), so its object never reaches the store. The exact-set model has no false positives and cannot show that lost object.
- Flush granularity. `saveCommit` builds and writes one LevelDB batch per saved commit (index.js:84-94), so `Dedup.SaveObjects` is applied once per commit.

=== FILE: decimal.dfy ===
/** Decimal text of natural numbers: `"Revision " + version` in the replay, and the
    checkpoint file, which is written as a number's text and read back with
    `parseInt(text, 10)`. */
module Decimal {
  import opened Wrappers

  predicate IsDigit(c: char) {
    '0' <= c <= '9'
  }

  function DigitChar(d: nat): (c: char)
    requires d < 10
    ensures IsDigit(c)
  {
    "0123456789"[d]
  }

  function DigitValue(c: char): (d: nat)
    requires IsDigit(c)
    ensures d < 10
  {
    (c as int - '0' as int) as nat
  }

  lemma DigitRoundTrip(d: nat)
    requires d < 10
    ensures DigitValue(DigitChar(d)) == d
  {
  }

  /** JavaScript's `String(n)` for a non-negative integer: no sign, no leading zero. */
  function NatToString(n: nat): (s: string)
    ensures |s| >= 1
    ensures forall i :: 0 <= i < |s| ==> IsDigit(s[i])
    ensures |s| > 1 ==> s[0] != '0'
    ensures n >= 10 <==> |s| >= 2
  {
    if n < 10 then [DigitChar(n)] else NatToString(n / 10) + [DigitChar(n % 10)]
  }

  /** The value of a string of decimal digits, most significant first. */
  function DigitsValue(s: string): nat
    requires forall i :: 0 <= i < |s| ==> IsDigit(s[i])
  {
    if |s| == 0 then 0 else 10 * DigitsValue(s[..|s| - 1]) + DigitValue(s[|s| - 1])
  }

  /** Length of the longest prefix of `s` made of decimal digits. */
  function DigitPrefixLength(s: string): (k: nat)
    ensures k <= |s|
    ensures forall i :: 0 <= i < k ==> IsDigit(s[i])
    ensures k < |s| ==> !IsDigit(s[k])
  {
    if |s| == 0 || !IsDigit(s[0]) then 0 else 1 + DigitPrefixLength(s[1..])
  }

  /** `parseInt(s, 10)` restricted to text that starts with a digit: the value of the
      leading run of digits; text that does not start with a digit parses to `NaN`,
      here `None`. */
  function ParseInt(s: string): (r: Option<nat>)
    ensures r.None? <==> (|s| == 0 || !IsDigit(s[0]))
  {
    var k := DigitPrefixLength(s);
    if k == 0 then None else Some(DigitsValue(s[..k]))
  }

  lemma {:induction false} DigitsValueOfNatToString(n: nat)
    ensures DigitsValue(NatToString(n)) == n
    decreases n
  {
    var s := NatToString(n);
    if n < 10 {
      DigitRoundTrip(n);
    } else {
      DigitsValueOfNatToString(n / 10);
      assert s[..|s| - 1] == NatToString(n / 10);
      DigitRoundTrip(n % 10);
    }
  }

  lemma {:induction false} PrefixLengthOfDigits(s: string)
    requires forall i :: 0 <= i < |s| ==> IsDigit(s[i])
    ensures DigitPrefixLength(s) == |s|
    decreases |s|
  {
    if |s| > 0 {
      PrefixLengthOfDigits(s[1..]);
    }
  }

  /** The checkpoint round trip: reading back the text written for a watermark
      yields that watermark. */
  lemma ParseIntOfNatToString(n: nat)
    ensures ParseInt(NatToString(n)) == Some(n)
  {
    var s := NatToString(n);
    PrefixLengthOfDigits(s);
    assert s[..|s|] == s;
    DigitsValueOfNatToString(n);
  }

  /** A non-empty run of digits without a leading zero is the decimal text of its
      own value: `String` and `parseInt` are inverse on canonical text. */
  lemma {:induction false} CanonicalIsNatToString(s: string)
    requires |s| >= 1 && forall i :: 0 <= i < |s| ==> IsDigit(s[i])
    requires |s| > 1 ==> s[0] != '0'
    ensures s == NatToString(DigitsValue(s))
    decreases |s|
  {
    var n := |s| - 1;
    var d := DigitValue(s[n]);
    assert DigitChar(d) == s[n];
    if n > 0 {
      var init := s[..n];
      CanonicalIsNatToString(init);
      var v := DigitsValue(init);
      assert v >= 1 by {
        if n == 1 {
          assert init[0] == s[0];
        }
      }
      assert DigitsValue(s) / 10 == v && DigitsValue(s) % 10 == d;
      assert s == init + [s[n]];
    }
  }

  /** Distinct numbers have distinct decimal text. */
  lemma NatToStringInjective(a: nat, b: nat)
    requires NatToString(a) == NatToString(b)
    ensures a == b
  {
    DigitsValueOfNatToString(a);
    DigitsValueOfNatToString(b);
  }
}

=== FILE: dedup.dfy ===
/** `saveCommit`'s object writes (index.js:83-94): each object of a commit is written
    to the object store only when its sha has not been seen in this run, and is then
    marked seen. The run-wide Bloom filter is modelled as the exact set of shas
    added to it, which has its no-false-negative behaviour and no false positives. */
module Dedup {
  import opened Objects

  /** The run's seen-filter and the durable object store (sha to serialised object). */
  datatype ObjectStore = ObjectStore(seen: set<Sha>, stored: map<Sha, string>)

  /** The objects of `objs` whose sha is not in `seen`. */
  function Unseen(objs: map<Sha, string>, seen: set<Sha>): (u: map<Sha, string>)
    ensures u.Keys == objs.Keys - seen
    ensures forall s :: s in u ==> u[s] == objs[s]
  {
    map s | s in objs && s !in seen :: objs[s]
  }

  /** The store after one commit's objects have gone through the filter. */
  function SaveObjects(objs: map<Sha, string>, st: ObjectStore): (r: ObjectStore)
    // every object of the commit is marked seen, and the filter only grows
    ensures r.seen == st.seen + objs.Keys
    // writes happen exactly for the objects not seen before
    ensures r.stored.Keys == st.stored.Keys + (objs.Keys - st.seen)
    ensures forall s :: s in objs && s !in st.seen ==> r.stored[s] == objs[s]
    // a skipped write never changes what the store holds
    ensures forall s :: s in st.stored && (s in st.seen || s !in objs) ==> r.stored[s] == st.stored[s]
  {
    ObjectStore(st.seen + objs.Keys, st.stored + Unseen(objs, st.seen))
  }

  /** Everything marked seen has been written. */
  predicate Covered(st: ObjectStore)
  {
    st.seen <= st.stored.Keys
  }

  /** The store holds at each sha the object the commit has under that sha. */
  ghost predicate Agrees(stored: map<Sha, string>, objs: map<Sha, string>)
  {
    forall s :: s in stored && s in objs ==> stored[s] == objs[s]
  }

  /** Starting from a store that covers its filter and agrees with the commit's
      objects (content addressing: one sha, one object), every object of the commit
      can be read back afterwards, and the filter is still covered. */
  lemma SavedObjectsRetrievable(objs: map<Sha, string>, st: ObjectStore)
    requires Covered(st) && Agrees(st.stored, objs)
    ensures Covered(SaveObjects(objs, st))
    ensures forall s :: s in objs ==> s in SaveObjects(objs, st).stored && SaveObjects(objs, st).stored[s] == objs[s]
  {
  }

  lemma UnseenStep(objs: map<Sha, string>, base: set<Sha>, todo: set<Sha>, sha: Sha)
    requires sha in todo && sha in objs
    ensures sha in base ==> Unseen(objs, base + (todo - {sha})) == Unseen(objs, base + todo)
    ensures sha !in base ==> Unseen(objs, base + (todo - {sha})) == Unseen(objs, base + todo)[sha := objs[sha]]
  {
    var after := Unseen(objs, base + (todo - {sha}));
    var before := Unseen(objs, base + todo);
    if sha !in base {
      assert after.Keys == before.Keys + {sha};
    } else {
      assert after.Keys == before.Keys;
    }
  }

  /** The source's loop over `commit.getObjects()`, one sha at a time, in whatever
      order the object's keys enumerate; its outcome does not depend on that order. */
  method SaveObjectsLoop(objs: map<Sha, string>, st: ObjectStore) returns (r: ObjectStore)
    ensures r == SaveObjects(objs, st)
  {
    var seen := st.seen;
    var stored := st.stored;
    var todo := objs.Keys;
    while todo != {}
      invariant todo <= objs.Keys
      invariant seen == st.seen + (objs.Keys - todo)
      invariant stored == st.stored + Unseen(objs, st.seen + todo)
      decreases todo
    {
      var sha :| sha in todo;
      UnseenStep(objs, st.seen, todo, sha);
      if sha !in seen {
        stored := stored[sha := objs[sha]];
        seen := seen + {sha};
      }
      todo := todo - {sha};
    }
    r := ObjectStore(seen, stored);
  }
}

=== FILE: objects.dfy ===
/** The content-addressed objects the replay produces: trees built from the working
    set and commits chained on them (index.js:70-71, 102-106, 133-141). Hashing,
    object serialisation and tree walking belong to `./lib/git`, which is not part of
    this model; they are the fields of `Git`, about which nothing is assumed unless a
    lemma states it. */
module Objects {
  import opened Wrappers
  import opened Snapshot

  type Sha = string

  /** One element of `toFilesArray()`: `{type: "file", path: "/" + filename, content}`. */
  datatype TreeEntry = TreeEntry(path: string, content: string)

  /** `Git.fromFiles(...)`: a tree and its sha. The listing is kept as a set: the
      tree identity is taken to be independent of listing order. */
  datatype Tree = Tree(sha: Sha, entries: set<TreeEntry>)

  /** What `Git.createCommit(tree, message, author, parents)` returns; its sha is
      `Git.commitSha` of the tree sha and the other three fields. */
  datatype Commit = Commit(sha: Sha, tree: Tree, message: string, author: Option<string>, parents: seq<Sha>)

  /** The operations of `./lib/git` the importer calls. */
  datatype Git = Git(
    treeSha: set<TreeEntry> -> Sha,
    commitSha: (Sha, string, Option<string>, seq<Sha>) -> Sha,
    /** `commit.getObjects()`: sha to serialised object, for every object the commit reaches. */
    objectsOf: Commit -> map<Sha, string>,
    /** `Git.walk(tree, visit)`: the entries visited, in visiting order, as (name, content). */
    walk: Tree -> seq<TreeEntry>)

  /** `toFilesArray()`: one entry per file, path prefixed with "/". Nothing is
      listed that is not a file, and the listing gives back each file's content. */
  function ToFilesArray(files: Files): (r: set<TreeEntry>)
    ensures forall p :: p in files ==> TreeEntry("/" + p, files[p]) in r
    ensures forall e :: e in r ==>
      |e.path| >= 1 && e.path[0] == '/' && e.path[1..] in files && files[e.path[1..]] == e.content
  {
    var r := set p | p in files :: TreeEntry("/" + p, files[p]);
    assert forall p :: p in files ==> ("/" + p)[1..] == p;
    r
  }

  /** Distinct working sets have distinct listings: a tree loses nothing of the files. */
  lemma ToFilesArrayInjective(f1: Files, f2: Files)
    requires ToFilesArray(f1) == ToFilesArray(f2)
    ensures f1 == f2
  {
    forall p | p in f1 ensures p in f2 && f2[p] == f1[p] {
      var e := TreeEntry("/" + p, f1[p]);
      assert e in ToFilesArray(f2);
      assert e.path[1..] == p;
    }
    forall p | p in f2 ensures p in f1 {
      var e := TreeEntry("/" + p, f2[p]);
      assert e in ToFilesArray(f1);
      assert e.path[1..] == p;
    }
  }

  /** `Git.fromFiles(toFilesArray())`. */
  function TreeOf(git: Git, files: Files): (t: Tree)
    ensures HashedTree(git, t)
    ensures forall p :: p in files ==> TreeEntry("/" + p, files[p]) in t.entries
    ensures forall e :: e in t.entries ==>
      |e.path| >= 1 && e.path[0] == '/' && e.path[1..] in files && files[e.path[1..]] == e.content
  {
    var entries := ToFilesArray(files);
    Tree(git.treeSha(entries), entries)
  }

  /** A tree whose sha is the hash of its own listing. */
  predicate HashedTree(git: Git, t: Tree)
  {
    t.sha == git.treeSha(t.entries)
  }

  /** The hypothesis of collision-free tree hashing. */
  ghost predicate TreeShaInjective(git: Git)
  {
    forall a, b :: git.treeSha(a) == git.treeSha(b) ==> a == b
  }

  /** Identical working sets always give the same tree sha; with collision-free
      hashing the converse holds too. */
  lemma TreeShaDecidesFiles(git: Git, f1: Files, f2: Files)
    ensures f1 == f2 ==> TreeOf(git, f1).sha == TreeOf(git, f2).sha
    ensures TreeShaInjective(git) && TreeOf(git, f1).sha == TreeOf(git, f2).sha ==> f1 == f2
  {
    if TreeShaInjective(git) && TreeOf(git, f1).sha == TreeOf(git, f2).sha {
      ToFilesArrayInjective(f1, f2);
    }
  }
}

=== FILE: packages.dfy ===
/** Package-reference extraction (`findPackages`, index.js:165-202): what becomes of
    the matches of the `data-semver` / `data-require` pattern in the tree's HTML
    files. The regular-expression engine is not modelled: each file comes with the
    matches it yields, in order. */
module Packages {
  import opened Wrappers

  /** The attribute a capture group names: `data-semver` or `data-require`. */
  datatype Attr = SemverAttr | RequireAttr

  datatype AttrValue = AttrValue(attr: Attr, value: string)

  /** One match: the first attribute pair and, when the element has one after it,
      the second (`match[1..2]` and `match[3..4]`). */
  datatype Match = Match(first: AttrValue, second: Option<AttrValue>)

  /** A file the walk visits: its name and the matches its content yields. */
  datatype ScannedFile = ScannedFile(name: string, matches: seq<Match>)

  /** One extracted reference `{name, semver, semverRange}`. */
  datatype Package = Package(name: string, semver: string, semverRange: string)

  /** `Semver.valid` (a normalised version, or `null`) and `Pad.pad`. */
  datatype Semver = Semver(valid: string -> Option<string>, pad: string -> string)

  // ---------------------------------------------------------------------------
  // String helpers: `split("@")`, `join("@")`, and the first "@"

  /** JavaScript's `s.split(sep)` for a one-character separator. */
  function Split(s: string, sep: char): (parts: seq<string>)
    ensures |parts| >= 1
    ensures forall i :: 0 <= i < |parts| ==> sep !in parts[i]
    ensures Join(parts, sep) == s
    decreases |s|
  {
    if |s| == 0 then [""]
    else
      var rest := Split(s[1..], sep);
      if s[0] == sep then
        assert s == [sep] + s[1..];
        [""] + rest
      else
        var parts := [[s[0]] + rest[0]] + rest[1..];
        assert parts[1..] == rest[1..];
        assert s == [s[0]] + s[1..];
        parts
  }

  /** JavaScript's `parts.join(sep)`. */
  function Join(parts: seq<string>, sep: char): string
    decreases |parts|
  {
    if |parts| == 0 then ""
    else if |parts| == 1 then parts[0]
    else parts[0] + [sep] + Join(parts[1..], sep)
  }

  /** Text before the first `c` (all of `s` when there is none). */
  function BeforeFirst(s: string, c: char): (r: string)
    ensures c !in r
    decreases |s|
  {
    if |s| == 0 || s[0] == c then "" else [s[0]] + BeforeFirst(s[1..], c)
  }

  /** Text after the first `c` (empty when there is none). */
  function AfterFirst(s: string, c: char): string
    decreases |s|
  {
    if |s| == 0 then "" else if s[0] == c then s[1..] else AfterFirst(s[1..], c)
  }

  /** `s` is its text before the first `c`, then that `c` and the text after it. */
  lemma {:induction false} FirstSplitsString(s: string, c: char)
    ensures c in s ==> s == BeforeFirst(s, c) + [c] + AfterFirst(s, c)
    ensures c !in s ==> BeforeFirst(s, c) == s && AfterFirst(s, c) == ""
    decreases |s|
  {
    if |s| > 0 && s[0] != c {
      FirstSplitsString(s[1..], c);
      assert s == [s[0]] + s[1..];
    }
  }

  /** The split at "@" as the importer uses it: the first part is the text before the
      first "@", the rest re-joined with "@" is the text after it. */
  lemma {:induction false} SplitHeadAndTail(s: string, sep: char)
    ensures Split(s, sep)[0] == BeforeFirst(s, sep)
    ensures Join(Split(s, sep)[1..], sep) == AfterFirst(s, sep)
    decreases |s|
  {
    if |s| > 0 {
      SplitHeadAndTail(s[1..], sep);
      var rest := Split(s[1..], sep);
      if s[0] != sep {
        assert Split(s, sep)[1..] == rest[1..];
      } else {
        assert Split(s, sep)[1..] == rest;
      }
    }
  }

  /** Joining parts free of the separator and splitting again gives the parts back. */
  lemma {:induction false} SplitJoin(parts: seq<string>, sep: char)
    requires |parts| >= 1
    requires forall i :: 0 <= i < |parts| ==> sep !in parts[i]
    ensures Split(Join(parts, sep), sep) == parts
    decreases |parts|, |parts[0]|
  {
    if |parts| == 1 {
      SplitNoSeparator(parts[0], sep);
    } else if |parts[0]| == 0 {
      SplitJoin(parts[1..], sep);
      assert Join(parts, sep) == [sep] + Join(parts[1..], sep);
      assert Join(parts, sep)[1..] == Join(parts[1..], sep);
      assert parts == [""] + parts[1..];
    } else {
      var head := parts[0];
      var shorter := [head[1..]] + parts[1..];
      ShorterHeadFree(parts, sep);
      SplitJoin(shorter, sep);
      JoinOfLongerHead(parts, sep);
      SplitOfCons(head[0], Join(shorter, sep), sep);
      assert head == [head[0]] + shorter[0];
      assert shorter[1..] == parts[1..];
      assert parts == [head] + parts[1..];
    }
  }

  lemma ShorterHeadFree(parts: seq<string>, sep: char)
    requires |parts| >= 1 && |parts[0]| > 0
    requires forall i :: 0 <= i < |parts| ==> sep !in parts[i]
    ensures var shorter := [parts[0][1..]] + parts[1..];
      forall i :: 0 <= i < |shorter| ==> sep !in shorter[i]
  {
    var head := parts[0];
    assert forall k :: 0 <= k < |head[1..]| ==> head[1..][k] == head[k + 1];
    var shorter := [head[1..]] + parts[1..];
    forall i | 0 <= i < |shorter| ensures sep !in shorter[i] {
      if i > 0 {
        assert shorter[i] == parts[i];
      }
    }
  }

  lemma JoinOfLongerHead(parts: seq<string>, sep: char)
    requires |parts| >= 1 && |parts[0]| > 0
    ensures Join(parts, sep) == [parts[0][0]] + Join([parts[0][1..]] + parts[1..], sep)
  {
    var head := parts[0];
    var shorter := [head[1..]] + parts[1..];
    assert shorter[1..] == parts[1..];
    assert head == [head[0]] + head[1..];
  }

  /** Splitting a text that starts with a non-separator glues that character to the
      first part. */
  lemma SplitOfCons(c: char, t: string, sep: char)
    requires c != sep
    ensures var rest := Split(t, sep); Split([c] + t, sep) == [[c] + rest[0]] + rest[1..]
  {
    assert ([c] + t)[1..] == t;
  }

  lemma {:induction false} SplitNoSeparator(s: string, sep: char)
    requires sep !in s
    ensures Split(s, sep) == [s]
    decreases |s|
  {
    if |s| > 0 {
      assert sep !in s[1..] by {
        assert forall k :: 0 <= k < |s[1..]| ==> s[1..][k] == s[k + 1];
      }
      SplitNoSeparator(s[1..], sep);
      assert s == [s[0]] + s[1..];
    }
  }

  // ---------------------------------------------------------------------------
  // One match

  /** The `pkg` object after `pkg[match[1]] = match[2]; if (match[3]) pkg[match[3]] =
      match[4]`: a second pair naming the same attribute overrides the first. */
  datatype Fields = Fields(semver: Option<string>, require: Option<string>)

  function Assign(f: Fields, av: AttrValue): Fields
  {
    match av.attr
    case SemverAttr => f.(semver := Some(av.value))
    case RequireAttr => f.(require := Some(av.value))
  }

  function FieldsOf(m: Match): Fields
  {
    var f := Assign(Fields(None, None), m.first);
    if m.second.Some? then Assign(f, m.second.value) else f
  }

  /** The `data-require` value of a match (the later pair wins). */
  function RequireOf(m: Match): Option<string>
  {
    if m.second.Some? && m.second.value.attr == RequireAttr then Some(m.second.value.value)
    else if m.first.attr == RequireAttr then Some(m.first.value)
    else None
  }

  /** The `data-semver` value of a match (the later pair wins). */
  function SemverOf(m: Match): Option<string>
  {
    if m.second.Some? && m.second.value.attr == SemverAttr then Some(m.second.value.value)
    else if m.first.attr == SemverAttr then Some(m.first.value)
    else None
  }

  /** The reference one match contributes. Only a match with a non-empty
      `data-require` and a non-empty `data-semver` whose version is valid yields
      one; its name is the text before the first "@" of the require, its range the
      text after it ("*" when that is empty), its version the padded valid version. */
  function PackageOf(sv: Semver, m: Match): (r: Option<Package>)
    ensures r.Some? <==>
      IsTruthy(RequireOf(m)) && IsTruthy(SemverOf(m)) && IsTruthy(sv.valid(SemverOf(m).value))
    ensures r.Some? ==>
      && r.value.name == BeforeFirst(RequireOf(m).value, '@')
      && r.value.semverRange ==
           (if AfterFirst(RequireOf(m).value, '@') == "" then "*" else AfterFirst(RequireOf(m).value, '@'))
      && r.value.semver == sv.pad(sv.valid(SemverOf(m).value).value)
  {
    var pkg := FieldsOf(m);
    assert pkg.require == RequireOf(m) && pkg.semver == SemverOf(m);
    if !IsTruthy(pkg.require) then None
    else
      var parts := Split(pkg.require.value, '@');
      if !IsTruthy(pkg.semver) then None
      else
        var valid := sv.valid(pkg.semver.value);
        var range := Join(parts[1..], '@');
        SplitHeadAndTail(pkg.require.value, '@');
        if IsTruthy(valid) then
          Some(Package(parts[0], sv.pad(valid.value), if range == "" then "*" else range))
        else None
  }

  // ---------------------------------------------------------------------------
  // Files

  function Lower(c: char): char
  {
    if 'A' <= c <= 'Z' then (c as int + 32) as char else c
  }

  /** `s` ends with the lower-case `suffix`, letters compared without case. */
  predicate EndsWithIgnoringCase(s: string, suffix: string)
  {
    |s| >= |suffix| && forall i :: 0 <= i < |suffix| ==> Lower(s[|s| - |suffix| + i]) == suffix[i]
  }

  /** `/\.html?$/i.test(name)`. */
  predicate IsHtmlName(name: string)
  {
    EndsWithIgnoringCase(name, ".htm") || EndsWithIgnoringCase(name, ".html")
  }

  /** The name test looks only at the end of the name and ignores case: ".html"
      and ".HTM" pass whatever precedes them, ".js" and a trailing ".htmlx" do not. */
  lemma HtmlNameSuffixes(s: string)
    ensures IsHtmlName(s + ".html") && IsHtmlName(s + ".HTM")
    ensures !IsHtmlName(s + ".js") && !IsHtmlName(s + ".htmlx")
  {
    var a, b, c, d := s + ".html", s + ".HTM", s + ".js", s + ".htmlx";
    assert forall i :: 0 <= i < 5 ==> a[|s| + i] == ".html"[i];
    assert EndsWithIgnoringCase(a, ".html");
    assert forall i :: 0 <= i < 4 ==> b[|s| + i] == ".HTM"[i];
    assert EndsWithIgnoringCase(b, ".htm");
    assert c[|c| - 1] == 's';
    assert !EndsWithIgnoringCase(c, ".htm") by {
      if |c| >= 4 { assert Lower(c[|c| - 4 + 3]) != ".htm"[3]; }
    }
    assert !EndsWithIgnoringCase(c, ".html") by {
      if |c| >= 5 { assert Lower(c[|c| - 5 + 4]) != ".html"[4]; }
    }
    assert d[|d| - 1] == 'x';
    assert Lower(d[|d| - 4 + 3]) != ".htm"[3];
    assert Lower(d[|d| - 5 + 4]) != ".html"[4];
  }

  /** The references the matches of one file yield, in order. */
  function MatchRefs(sv: Semver, ms: seq<Match>): (refs: seq<Package>)
    ensures forall p :: p in refs <==> exists j :: 0 <= j < |ms| && PackageOf(sv, ms[j]) == Some(p)
    decreases |ms|
  {
    if |ms| == 0 then []
    else
      var n := |ms| - 1;
      var init := MatchRefs(sv, ms[..n]);
      assert forall j :: 0 <= j < n ==> ms[..n][j] == ms[j];
      init + (if PackageOf(sv, ms[n]).Some? then [PackageOf(sv, ms[n]).value] else [])
  }

  /** `file` is an HTML file one of whose matches yields `p`. */
  ghost predicate YieldedBy(sv: Semver, file: ScannedFile, p: Package)
  {
    IsHtmlName(file.name) && exists j :: 0 <= j < |file.matches| && PackageOf(sv, file.matches[j]) == Some(p)
  }

  /** Every reference the walk meets, in walking order; files whose name is not an
      HTML name contribute nothing. */
  function Refs(sv: Semver, files: seq<ScannedFile>): (refs: seq<Package>)
    ensures forall p :: p in refs <==> exists k :: 0 <= k < |files| && YieldedBy(sv, files[k], p)
    decreases |files|
  {
    if |files| == 0 then []
    else
      var n := |files| - 1;
      var init := Refs(sv, files[..n]);
      assert forall k :: 0 <= k < n ==> files[..n][k] == files[k];
      init + (if IsHtmlName(files[n].name) then MatchRefs(sv, files[n].matches) else [])
  }

  /** The matches of a file are read in order: those of `a + b` yield the
      references of `a` followed by those of `b`. */
  lemma {:induction false} MatchRefsAppend(sv: Semver, a: seq<Match>, b: seq<Match>)
    ensures MatchRefs(sv, a + b) == MatchRefs(sv, a) + MatchRefs(sv, b)
    decreases |b|
  {
    if |b| == 0 {
      assert a + b == a;
    } else {
      var n := |b| - 1;
      var ab := a + b;
      assert ab[|ab| - 1] == b[n];
      assert ab[..|ab| - 1] == a + b[..n];
      MatchRefsAppend(sv, a, b[..n]);
    }
  }

  /** One match yields its `PackageOf` reference, or nothing. */
  lemma MatchRefsSingle(sv: Semver, m: Match)
    ensures MatchRefs(sv, [m]) == (if PackageOf(sv, m).Some? then [PackageOf(sv, m).value] else [])
  {
    assert [m][..0] == [];
  }

  /** Files are read in walking order: the files of `a + b` yield the references of
      `a` followed by those of `b`. */
  lemma {:induction false} RefsAppend(sv: Semver, a: seq<ScannedFile>, b: seq<ScannedFile>)
    ensures Refs(sv, a + b) == Refs(sv, a) + Refs(sv, b)
    decreases |b|
  {
    if |b| == 0 {
      assert a + b == a;
    } else {
      var n := |b| - 1;
      var ab := a + b;
      assert ab[|ab| - 1] == b[n];
      assert ab[..|ab| - 1] == a + b[..n];
      RefsAppend(sv, a, b[..n]);
    }
  }

  /** An HTML file yields the references of its matches in order; any other file
      yields nothing. */
  lemma RefsSingle(sv: Semver, f: ScannedFile)
    ensures Refs(sv, [f]) == (if IsHtmlName(f.name) then MatchRefs(sv, f.matches) else [])
  {
    assert [f][..0] == [];
  }

  /** `refs[i]` is the last reference carrying its name. */
  predicate IsLastOfName(refs: seq<Package>, i: int)
  {
    0 <= i < |refs| && forall j :: i < j < |refs| ==> refs[j].name != refs[i].name
  }

  function Names(refs: seq<Package>): set<string>
  {
    set p | p in refs :: p.name
  }

  /** `refs[pkg.name] = pkg` for each reference in turn: one entry per name, the last
      occurrence winning. */
  function IndexByName(refs: seq<Package>): (m: map<string, Package>)
    ensures m.Keys == Names(refs)
    ensures forall i :: IsLastOfName(refs, i) ==> m[refs[i].name] == refs[i]
    ensures forall name :: name in m ==> m[name] in refs && m[name].name == name
    decreases |refs|
  {
    if |refs| == 0 then map[]
    else
      var n := |refs| - 1;
      var m0 := IndexByName(refs[..n]);
      IndexByNameStep(refs[..n], refs[n], m0);
      assert refs == refs[..n] + [refs[n]];
      m0[refs[n].name := refs[n]]
  }

  lemma IndexByNameStep(init: seq<Package>, last: Package, m0: map<string, Package>)
    requires m0.Keys == Names(init)
    requires forall i :: IsLastOfName(init, i) ==> m0[init[i].name] == init[i]
    requires forall name :: name in m0 ==> m0[name] in init && m0[name].name == name
    ensures var refs := init + [last]; var m := m0[last.name := last];
      && m.Keys == Names(refs)
      && (forall i :: IsLastOfName(refs, i) ==> m[refs[i].name] == refs[i])
      && (forall name :: name in m ==> m[name] in refs && m[name].name == name)
  {
    var refs := init + [last];
    var m := m0[last.name := last];
    assert Names(refs) == Names(init) + {last.name} by {
      forall name | name in Names(refs) ensures name in Names(init) + {last.name} {
        var p :| p in refs && p.name == name;
        if p != last {
          assert p in init;
        }
      }
      forall name | name in Names(init) ensures name in Names(refs) {
        var p :| p in init && p.name == name;
        assert p in refs;
      }
      assert last in refs;
    }
    forall i | IsLastOfName(refs, i) ensures m[refs[i].name] == refs[i] {
      if i < |init| {
        assert refs[|init|] == last;
        forall j | i < j < |init| ensures init[j].name != init[i].name {
          assert init[j] == refs[j];
        }
        assert IsLastOfName(init, i);
        assert init[i] == refs[i];
      }
    }
    forall name | name in m ensures m[name] in refs {
      if name != last.name {
        assert m0[name] in init;
      }
    }
  }

  /** `findPackages(tree)`: the references of the tree's HTML files keyed by name.
      A name is present exactly when some HTML file yields a reference with it, and
      it maps to the last such reference in walking order. */
  function FindPackages(sv: Semver, files: seq<ScannedFile>): (r: map<string, Package>)
    ensures forall name :: name in r ==>
      r[name].name == name && exists k :: 0 <= k < |files| && YieldedBy(sv, files[k], r[name])
    ensures forall k, p :: 0 <= k < |files| && YieldedBy(sv, files[k], p) ==> p.name in r
    ensures var refs := Refs(sv, files);
      forall i :: IsLastOfName(refs, i) ==> refs[i].name in r && r[refs[i].name] == refs[i]
  {
    var refs := Refs(sv, files);
    var r := IndexByName(refs);
    assert forall p :: p in refs ==> p.name in Names(refs);
    r
  }

  /** The last occurrence wins: when the last match of a file walked after `files`
      yields `p`, the result maps `p.name` to `p`, whatever earlier files yield. */
  lemma LaterFileWins(sv: Semver, files: seq<ScannedFile>, f: ScannedFile, p: Package)
    requires IsHtmlName(f.name) && |f.matches| > 0
    requires PackageOf(sv, f.matches[|f.matches| - 1]) == Some(p)
    ensures p.name in FindPackages(sv, files + [f]) && FindPackages(sv, files + [f])[p.name] == p
  {
    var refs := Refs(sv, files + [f]);
    LastReferenceOfLaterFile(sv, files, f, p);
    assert IsLastOfName(refs, |refs| - 1);
  }

  lemma LastReferenceOfLaterFile(sv: Semver, files: seq<ScannedFile>, f: ScannedFile, p: Package)
    requires IsHtmlName(f.name) && |f.matches| > 0
    requires PackageOf(sv, f.matches[|f.matches| - 1]) == Some(p)
    ensures |Refs(sv, files + [f])| > 0 && Refs(sv, files + [f])[|Refs(sv, files + [f])| - 1] == p
  {
    var ms := f.matches;
    var n := |ms| - 1;
    RefsAppend(sv, files, [f]);
    RefsSingle(sv, f);
    assert MatchRefs(sv, ms) == MatchRefs(sv, ms[..n]) + [p];
  }

  /** `<script data-semver="1.2.3" data-require="foo@^1.0.0">` yields `foo` with range
      `^1.0.0` and the padded version; with an invalid version it yields nothing. */
  lemma ScriptTagExample(sv: Semver)
    ensures var m := Match(AttrValue(SemverAttr, "1.2.3"), Some(AttrValue(RequireAttr, "foo@^1.0.0")));
      && (sv.valid("1.2.3") == Some("1.2.3") ==> PackageOf(sv, m) == Some(Package("foo", sv.pad("1.2.3"), "^1.0.0")))
      && (sv.valid("1.2.3") == None ==> PackageOf(sv, m) == None)
  {
    var m := Match(AttrValue(SemverAttr, "1.2.3"), Some(AttrValue(RequireAttr, "foo@^1.0.0")));
    assert RequireOf(m) == Some("foo@^1.0.0");
    assert SemverOf(m) == Some("1.2.3");
    FooRequire();
  }

  lemma FooRequire()
    ensures BeforeFirst("foo@^1.0.0", '@') == "foo"
    ensures AfterFirst("foo@^1.0.0", '@') == "^1.0.0"
  {
    var s0 := "foo@^1.0.0";
    var s3 := "@^1.0.0";
    assert s0[1..][1..][1..] == s3;
    assert BeforeFirst(s3, '@') == "" && AfterFirst(s3, '@') == "^1.0.0";
    assert BeforeFirst(s0[1..][1..], '@') == "o";
    assert BeforeFirst(s0[1..], '@') == "oo";
  }
}

=== FILE: pipeline.dfy ===
/** The end of the migration stream: `Pull.group(batchSize)` batches the documents,
    `savePlunks` bulk-writes a batch and reports its size and latest `updated_at`
    (index.js:269-284), and the `Pull.reduce` step keeps the running count and
    watermark and overwrites the progress file every `batchSize * 10` documents and
    once more at the end (index.js:386-424). Timestamps are integers (milliseconds);
    the checkpoint file is modelled by the sequence of values written to it. */
module Pipeline {
  import opened Wrappers
  import opened Decimal
  import opened Projection

  const BatchSize: nat := 16

  // ---------------------------------------------------------------------------
  // Latest timestamp

  /** `Math.max(a, b)`. */
  function Max(a: int, b: int): int
  {
    if a > b then a else b
  }

  /** The larger of `acc` and every timestamp of `ts`. */
  function Latest(acc: int, ts: seq<int>): (r: int)
    ensures r >= acc
    ensures forall i :: 0 <= i < |ts| ==> r >= ts[i]
    ensures r == acc || exists i :: 0 <= i < |ts| && r == ts[i]
    decreases |ts|
  {
    if |ts| == 0 then acc
    else
      var n := |ts| - 1;
      var m := Latest(acc, ts[..n]);
      assert forall i :: 0 <= i < n ==> ts[..n][i] == ts[i];
      Max(ts[n], m)
  }

  /** The watermark of a concatenation is reached in two steps. */
  lemma {:induction false} LatestAppend(acc: int, xs: seq<int>, ys: seq<int>)
    ensures Latest(acc, xs + ys) == Latest(Latest(acc, xs), ys)
    decreases |ys|
  {
    if |ys| == 0 {
      assert xs + ys == xs;
    } else {
      var n := |ys| - 1;
      var zs := xs + ys;
      LatestAppend(acc, xs, ys[..n]);
      assert zs[..|zs| - 1] == xs + ys[..n] && zs[|zs| - 1] == ys[n];
      assert Latest(acc, zs) == Max(ys[n], Latest(acc, xs + ys[..n]));
    }
  }

  // ---------------------------------------------------------------------------
  // savePlunks

  /** The `{size, updated_at}` a saved batch reports. */
  datatype BatchResult = BatchResult(size: nat, updatedAt: int)

  /** One element of the bulk request body: an index action for a document id, or
      the document itself. */
  datatype BulkItem = IndexAction(docId: string) | Document(doc: PlunkDoc)

  /** The documents' `updated_at` values, in order. */
  function UpdatedAts(plunks: seq<PlunkDoc>): seq<int>
  {
    seq(|plunks|, i requires 0 <= i < |plunks| => plunks[i].updatedAt)
  }

  /** The watermark of a batch is not negative, is at least every document's
      `updated_at`, and is 0 or one of them. */
  lemma BatchWatermark(plunks: seq<PlunkDoc>)
    ensures var u := Latest(0, UpdatedAts(plunks));
      && u >= 0
      && (forall i :: 0 <= i < |plunks| ==> u >= plunks[i].updatedAt)
      && (u == 0 || exists i :: 0 <= i < |plunks| && u == plunks[i].updatedAt)
  {
    var u := Latest(0, UpdatedAts(plunks));
    assert forall i :: 0 <= i < |plunks| ==> UpdatedAts(plunks)[i] == plunks[i].updatedAt;
    if u != 0 {
      var i :| 0 <= i < |plunks| && u == UpdatedAts(plunks)[i];
      assert u == plunks[i].updatedAt;
    }
  }

  /** `body` is the bulk request for the first `k` documents: an index action with
      the document's id, then the document, for each in order. */
  predicate Paired(plunks: seq<PlunkDoc>, body: seq<BulkItem>, k: nat)
    requires k <= |plunks|
  {
    && |body| == 2 * k
    && forall i :: 0 <= i < k ==>
      body[2 * i] == IndexAction(plunks[i].id) && body[2 * i + 1] == Document(plunks[i])
  }

  lemma PairedStep(plunks: seq<PlunkDoc>, body: seq<BulkItem>, k: nat)
    requires k < |plunks| && Paired(plunks, body, k)
    ensures Paired(plunks, body + [IndexAction(plunks[k].id), Document(plunks[k])], k + 1)
  {
  }

  /** `savePlunks(plunks)` once the bulk write has succeeded: the request body pairs
      an index action with each document, in order, and the batch reports its
      length and the watermark `Latest(0, ...)` of its documents' `updated_at`
      (`BatchWatermark` says what that is). */
  method SavePlunks(plunks: seq<PlunkDoc>) returns (r: BatchResult, body: seq<BulkItem>)
    ensures r.size == |plunks|
    ensures r.updatedAt == Latest(0, UpdatedAts(plunks))
    ensures Paired(plunks, body, |plunks|)
  {
    var updatedAt := 0;
    body := [];
    var k := 0;
    while k < |plunks|
      invariant 0 <= k <= |plunks|
      invariant updatedAt == Latest(0, UpdatedAts(plunks)[..k])
      invariant Paired(plunks, body, k)
    {
      PairedStep(plunks, body, k);
      body := body + [IndexAction(plunks[k].id), Document(plunks[k])];
      assert UpdatedAts(plunks)[..k + 1][..k] == UpdatedAts(plunks)[..k];
      updatedAt := Max(plunks[k].updatedAt, updatedAt);
      k := k + 1;
    }
    assert UpdatedAts(plunks)[..k] == UpdatedAts(plunks);
    r := BatchResult(|plunks|, updatedAt);
  }

  // ---------------------------------------------------------------------------
  // The reduce step

  /** One overwrite of the progress file: how many batches had been reduced when it
      happened, and the watermark written. */
  datatype Write = Write(afterBatches: nat, value: int)

  /** The reduce step's state: `sum`, `lastUpdate`, and the overwrites of the
      progress file so far, oldest first. */
  datatype Progress = Progress(sum: nat, lastUpdate: int, writes: seq<Write>)

  /** `sum % (batchSize * 10) === 0`: the counts at which the progress file is written. */
  predicate IsCheckpointCount(batchSize: nat, sum: nat)
    requires batchSize > 0
  {
    sum % (batchSize * 10) == 0
  }

  /** One call of the reduce function, on the `batches`-th saved batch. */
  function ReduceStep(batchSize: nat, p: Progress, b: BatchResult, batches: nat): (r: Progress)
    requires batchSize > 0
    ensures r.sum == p.sum + b.size
    ensures r.lastUpdate >= p.lastUpdate && r.lastUpdate >= b.updatedAt
    ensures r.lastUpdate == p.lastUpdate || r.lastUpdate == b.updatedAt
    ensures IsCheckpointCount(batchSize, r.sum) ==> r.writes == p.writes + [Write(batches, r.lastUpdate)]
    ensures !IsCheckpointCount(batchSize, r.sum) ==> r.writes == p.writes
  {
    var sum := p.sum + b.size;
    var lastUpdate := Max(p.lastUpdate, b.updatedAt);
    Progress(sum, lastUpdate,
      if IsCheckpointCount(batchSize, sum) then p.writes + [Write(batches, lastUpdate)] else p.writes)
  }

  function TotalSize(results: seq<BatchResult>): nat
    decreases |results|
  {
    if |results| == 0 then 0 else TotalSize(results[..|results| - 1]) + results[|results| - 1].size
  }

  /** The batches' reported `updated_at` values, in order. */
  function BatchUpdates(results: seq<BatchResult>): seq<int>
  {
    seq(|results|, i requires 0 <= i < |results| => results[i].updatedAt)
  }

  /** The batch counts at which the progress file was written. */
  function WriteCounts(ws: seq<Write>): seq<nat>
  {
    seq(|ws|, i requires 0 <= i < |ws| => ws[i].afterBatches)
  }

  /** `w` was written after the first `w.afterBatches` batches, whose document count
      is a multiple of `batchSize * 10`, and holds their watermark. */
  predicate WatermarkOfPrefix(batchSize: nat, results: seq<BatchResult>, w: Write)
    requires batchSize > 0
  {
    && 0 < w.afterBatches <= |results|
    && IsCheckpointCount(batchSize, TotalSize(results[..w.afterBatches]))
    && w.value == Latest(0, BatchUpdates(results[..w.afterBatches]))
  }

  /** The reduce over the saved batches, in order, from `sum = 0` and
      `lastUpdate = 0`: `sum` counts the documents, `lastUpdate` is the latest
      watermark, and the progress file is written after the k-th batch exactly when
      the first k batches hold a multiple of `batchSize * 10` documents, with their
      watermark. */
  function Reduce(batchSize: nat, results: seq<BatchResult>): (r: Progress)
    requires batchSize > 0
    ensures r.sum == TotalSize(results)
    ensures r.lastUpdate == Latest(0, BatchUpdates(results))
    ensures forall i :: 0 <= i < |r.writes| ==> WatermarkOfPrefix(batchSize, results, r.writes[i])
    ensures forall i, j :: 0 <= i < j < |r.writes| ==> r.writes[i].afterBatches < r.writes[j].afterBatches
    ensures forall k :: 0 < k <= |results| ==>
      (IsCheckpointCount(batchSize, TotalSize(results[..k])) <==> k in WriteCounts(r.writes))
    decreases |results|
  {
    if |results| == 0 then Progress(0, 0, [])
    else
      var n := |results| - 1;
      var p := Reduce(batchSize, results[..n]);
      var r := ReduceStep(batchSize, p, results[n], n + 1);
      LatestOfLastBatch(results);
      ReduceStepWrites(batchSize, results, p.writes, r.writes);
      r
  }

  lemma LatestOfLastBatch(results: seq<BatchResult>)
    requires |results| > 0
    ensures var n := |results| - 1; var m := Latest(0, BatchUpdates(results[..n]));
      Latest(0, BatchUpdates(results)) == Max(results[n].updatedAt, m)
  {
    var n := |results| - 1;
    assert BatchUpdates(results)[..n] == BatchUpdates(results[..n]);
  }

  lemma ReduceStepWrites(batchSize: nat, results: seq<BatchResult>, before: seq<Write>, after: seq<Write>)
    requires batchSize > 0 && |results| > 0
    requires var init := results[..|results| - 1];
      && (forall i :: 0 <= i < |before| ==> WatermarkOfPrefix(batchSize, init, before[i]))
      && (forall i, j :: 0 <= i < j < |before| ==> before[i].afterBatches < before[j].afterBatches)
      && (forall k :: 0 < k <= |init| ==>
            (IsCheckpointCount(batchSize, TotalSize(init[..k])) <==> k in WriteCounts(before)))
    requires IsCheckpointCount(batchSize, TotalSize(results)) ==>
      after == before + [Write(|results|, Latest(0, BatchUpdates(results)))]
    requires !IsCheckpointCount(batchSize, TotalSize(results)) ==> after == before
    ensures forall i :: 0 <= i < |after| ==> WatermarkOfPrefix(batchSize, results, after[i])
    ensures forall i, j :: 0 <= i < j < |after| ==> after[i].afterBatches < after[j].afterBatches
    ensures forall k :: 0 < k <= |results| ==>
      (IsCheckpointCount(batchSize, TotalSize(results[..k])) <==> k in WriteCounts(after))
  {
    var n := |results| - 1;
    var init := results[..n];
    assert results[..n + 1] == results;
    forall i | 0 <= i < |before| ensures WatermarkOfPrefix(batchSize, results, before[i]) {
      assert results[..before[i].afterBatches] == init[..before[i].afterBatches];
    }
    forall k | 0 < k <= n
      ensures IsCheckpointCount(batchSize, TotalSize(results[..k])) <==> k in WriteCounts(after)
    {
      assert results[..k] == init[..k];
      assert WriteCounts(after) == WriteCounts(before) || WriteCounts(after) == WriteCounts(before) + [n + 1];
    }
    if IsCheckpointCount(batchSize, TotalSize(results)) {
      assert WriteCounts(after)[|before|] == n + 1;
    } else {
      forall i | 0 <= i < |before| ensures WriteCounts(after)[i] != n + 1 {
        assert WatermarkOfPrefix(batchSize, init, before[i]);
      }
    }
  }

  /** The values the reduce step writes to the progress file, followed by the final
      watermark, never decrease and are never negative. */
  lemma WrittenValuesNonDecreasing(batchSize: nat, results: seq<BatchResult>)
    requires batchSize > 0
    ensures var p := Reduce(batchSize, results);
      && NonDecreasing(Values(p.writes) + [p.lastUpdate])
      && (forall i :: 0 <= i < |p.writes| ==> p.writes[i].value >= 0)
      && p.lastUpdate >= 0
  {
    var p := Reduce(batchSize, results);
    var ws := p.writes;
    var vs := Values(ws);
    assert results[..|results|] == results;
    forall i | 0 <= i < |ws| ensures 0 <= ws[i].value <= p.lastUpdate {
      assert WatermarkOfPrefix(batchSize, results, ws[i]);
      WrittenValueBounded(batchSize, results, ws[i], |results|);
    }
    forall i, j | 0 <= i < j < |vs| ensures vs[i] <= vs[j] {
      WrittenValueBounded(batchSize, results, ws[i], ws[j].afterBatches);
    }
    NonDecreasingSnoc(vs, p.lastUpdate);
  }

  lemma NonDecreasingSnoc(s: seq<int>, last: int)
    requires NonDecreasing(s) && forall i :: 0 <= i < |s| ==> s[i] <= last
    ensures NonDecreasing(s + [last])
  {
    var t := s + [last];
    forall i, j | 0 <= i < j < |t| ensures t[i] <= t[j] {
      assert t[i] == s[i];
      if j < |s| {
        assert t[j] == s[j];
      }
    }
  }

  /** A value written after `k` batches is at most the watermark of any longer
      prefix, and not negative. */
  lemma WrittenValueBounded(batchSize: nat, results: seq<BatchResult>, w: Write, b: nat)
    requires batchSize > 0 && WatermarkOfPrefix(batchSize, results, w)
    requires w.afterBatches <= b <= |results|
    ensures 0 <= w.value <= Latest(0, BatchUpdates(results[..b]))
  {
    var a := w.afterBatches;
    LatestOfPrefixes(BatchUpdates(results), a, b);
    assert BatchUpdates(results)[..a] == BatchUpdates(results[..a]);
    assert BatchUpdates(results)[..b] == BatchUpdates(results[..b]);
  }

  /** The watermark of a longer prefix is at least that of a shorter one. */
  lemma LatestOfPrefixes(ts: seq<int>, a: nat, b: nat)
    requires a <= b <= |ts|
    ensures 0 <= Latest(0, ts[..a]) <= Latest(0, ts[..b])
  {
    var la := Latest(0, ts[..a]);
    if la != 0 {
      var i :| 0 <= i < a && la == ts[..a][i];
      assert ts[..b][i] == ts[i];
    }
  }

  lemma {:induction false} TotalSizeOfFullBatches(batchSize: nat, results: seq<BatchResult>)
    requires forall i :: 0 <= i < |results| ==> results[i].size == batchSize
    ensures TotalSize(results) == batchSize * |results|
    decreases |results|
  {
    if |results| > 0 {
      var n := |results| - 1;
      TotalSizeOfFullBatches(batchSize, results[..n]);
      assert batchSize * (n + 1) == batchSize * n + batchSize;
    }
  }

  /** With every batch full, the progress file is written after every tenth batch and
      after no other. */
  lemma FullBatchesCheckpointEveryTenth(batchSize: nat, results: seq<BatchResult>)
    requires batchSize > 0
    requires forall i :: 0 <= i < |results| ==> results[i].size == batchSize
    ensures forall k :: 0 < k <= |results| ==>
      (k in WriteCounts(Reduce(batchSize, results).writes) <==> k % 10 == 0)
  {
    forall k | 0 < k <= |results|
      ensures k in WriteCounts(Reduce(batchSize, results).writes) <==> k % 10 == 0
    {
      TotalSizeOfFullBatches(batchSize, results[..k]);
      ScaledRemainder(batchSize, k);
      assert batchSize * (k % 10) == 0 <==> k % 10 == 0 by {
        if k % 10 != 0 {
          MulAtLeast(batchSize, k % 10);
        }
      }
    }
  }

  /** The importer's batch size of 16: the progress file is written after the k-th
      batch exactly when the first k batches hold a multiple of 160 documents. */
  lemma CheckpointEvery160Documents(results: seq<BatchResult>)
    ensures forall k :: 0 < k <= |results| ==>
      (k in WriteCounts(Reduce(BatchSize, results).writes) <==> TotalSize(results[..k]) % 160 == 0)
  {
    var r := Reduce(BatchSize, results);
    forall k | 0 < k <= |results|
      ensures k in WriteCounts(r.writes) <==> TotalSize(results[..k]) % 160 == 0
    {
      assert IsCheckpointCount(BatchSize, TotalSize(results[..k])) <==> k in WriteCounts(r.writes);
    }
  }

  /** `(b * count) % (b * 10)` is `b` times the last decimal digit of `count`. */
  lemma ScaledRemainder(b: nat, count: nat)
    requires b > 0
    ensures (b * count) % (b * 10) == b * (count % 10)
  {
    var q, m := count / 10, count % 10;
    var d := b * 10;
    var x := b * count;
    assert count == 10 * q + m;
    assert x == d * q + b * m by {
      calc {
        x;
        b * (10 * q + m);
        b * (10 * q) + b * m;
        (b * 10) * q + b * m;
      }
    }
    assert b * m < d by {
      MulAtLeast(b, 10 - m);
      assert b * (10 - m) == d - b * m;
    }
    assert b * m >= 0;
    ModUnique(x, d, q, b * m);
  }

  /** Euclidean division by a positive divisor has one quotient and one remainder. */
  lemma ModUnique(x: int, d: int, q: int, r: int)
    requires d > 0 && 0 <= r < d && x == d * q + r
    ensures x % d == r && x / d == q
  {
    var q', r' := x / d, x % d;
    assert d * (q - q') == r' - r;
    if q > q' {
      assert d * (q - q') >= d by { MulAtLeast(d, q - q'); }
    } else if q < q' {
      assert d * (q' - q) >= d by { MulAtLeast(d, q' - q); }
    }
  }

  lemma MulAtLeast(d: int, k: int)
    requires d > 0 && k >= 1
    ensures d * k >= d
  {
    assert d * k == d * (k - 1) + d;
    assert d * (k - 1) >= 0;
  }

  // ---------------------------------------------------------------------------
  // The whole run

  /** What the asynchronous step delivered for a batch: its result, or an error
      (a failed bulk write, or an error raised while transforming a record). */
  datatype BatchOutcome = Saved(result: BatchResult) | Failed

  /** How the run ends: the reduce state, every value written to the progress file
      in order, and the exit code. */
  datatype RunEnd = RunEnd(progress: Progress, written: seq<int>, exitCode: int)

  /** The batches delivered before the first error. */
  function SavedPrefix(outcomes: seq<BatchOutcome>): (rs: seq<BatchResult>)
    ensures |rs| <= |outcomes|
    ensures forall i :: 0 <= i < |rs| ==> outcomes[i] == Saved(rs[i])
    ensures |rs| < |outcomes| ==> outcomes[|rs|].Failed?
    decreases |outcomes|
  {
    if |outcomes| == 0 || outcomes[0].Failed? then []
    else [outcomes[0].result] + SavedPrefix(outcomes[1..])
  }

  /** The values written to the progress file, in order. */
  function Values(ws: seq<Write>): seq<int>
  {
    seq(|ws|, i requires 0 <= i < |ws| => ws[i].value)
  }

  predicate NonDecreasing(s: seq<int>)
  {
    forall i, j :: 0 <= i < j < |s| ==> s[i] <= s[j]
  }

  /** The reduce over the stream, then its final callback: on success the watermark
      is written once more and the exit code is 0; on an error the stream stops,
      nothing more is written and the exit code is 1. Either way the progress file
      only ever moves forward and never holds a negative value. */
  function Run(batchSize: nat, outcomes: seq<BatchOutcome>): (r: RunEnd)
    requires batchSize > 0
    ensures r.exitCode == 0 <==> forall i :: 0 <= i < |outcomes| ==> outcomes[i].Saved?
    ensures r.exitCode == 0 ==> r.written == Values(r.progress.writes) + [r.progress.lastUpdate]
    ensures r.exitCode != 0 ==> r.exitCode == 1 && r.written == Values(r.progress.writes)
    ensures r.progress == Reduce(batchSize, SavedPrefix(outcomes))
    ensures NonDecreasing(r.written)
    ensures forall i :: 0 <= i < |r.written| ==> r.written[i] >= 0
  {
    var saved := SavedPrefix(outcomes);
    var p := Reduce(batchSize, saved);
    WrittenValuesNonDecreasing(batchSize, saved);
    LogFacts(Values(p.writes), p.lastUpdate);
    SavedPrefixIsAll(outcomes);
    if |saved| == |outcomes| then RunEnd(p, Values(p.writes) + [p.lastUpdate], 0)
    else RunEnd(p, Values(p.writes), 1)
  }

  /** The stream ends without an error exactly when every outcome is a saved batch. */
  lemma SavedPrefixIsAll(outcomes: seq<BatchOutcome>)
    ensures |SavedPrefix(outcomes)| == |outcomes| <==> forall i :: 0 <= i < |outcomes| ==> outcomes[i].Saved?
  {
  }

  /** A non-decreasing log stays non-decreasing without its last entry. */
  lemma LogFacts(vs: seq<int>, last: int)
    requires NonDecreasing(vs + [last])
    requires forall i :: 0 <= i < |vs| ==> vs[i] >= 0
    requires last >= 0
    ensures NonDecreasing(vs)
    ensures forall i :: 0 <= i < |vs + [last]| ==> (vs + [last])[i] >= 0
  {
    forall i, j | 0 <= i < j < |vs| ensures vs[i] <= vs[j] {
      assert (vs + [last])[i] == vs[i] && (vs + [last])[j] == vs[j];
    }
  }

  // ---------------------------------------------------------------------------
  // Batching and resuming

  /** `Pull.group(n)`: consecutive groups of `n` items, the last one possibly
      shorter, never an empty group. */
  function Group<T>(xs: seq<T>, n: nat): (gs: seq<seq<T>>)
    requires n > 0
    ensures forall i :: 0 <= i < |gs| ==> 0 < |gs[i]| <= n
    ensures forall i :: 0 <= i < |gs| - 1 ==> |gs[i]| == n
    ensures Flatten(gs) == xs
    decreases |xs|
  {
    if |xs| == 0 then []
    else if |xs| <= n then [xs]
    else
      var rest := Group(xs[n..], n);
      assert xs == xs[..n] + xs[n..];
      [xs[..n]] + rest
  }

  function Flatten<T>(gs: seq<seq<T>>): seq<T>
    decreases |gs|
  {
    if |gs| == 0 then [] else gs[0] + Flatten(gs[1..])
  }

  /** The groups before position `k` flatten to a prefix of the whole. */
  lemma {:induction false} FlattenPrefix<T>(gs: seq<seq<T>>, k: nat)
    requires k <= |gs|
    ensures |Flatten(gs[..k])| <= |Flatten(gs)|
    ensures Flatten(gs[..k]) == Flatten(gs)[..|Flatten(gs[..k])|]
    decreases k
  {
    if k > 0 {
      FlattenPrefix(gs[1..], k - 1);
      assert gs[..k][1..] == gs[1..][..k - 1];
    }
  }

  lemma {:induction false} FlattenSnoc<T>(gs: seq<seq<T>>, g: seq<T>)
    ensures Flatten(gs + [g]) == Flatten(gs) + g
    decreases |gs|
  {
    if |gs| == 0 {
      assert gs + [g] == [g];
    } else {
      FlattenSnoc(gs[1..], g);
      assert (gs + [g])[1..] == gs[1..] + [g];
    }
  }

  /** The batch result `savePlunks` reports for a group of documents, as timestamps. */
  function Summary(g: seq<int>): BatchResult
  {
    BatchResult(|g|, Latest(0, g))
  }

  /** The batch results for a sequence of groups, in order. */
  function Summaries(gs: seq<seq<int>>): seq<BatchResult>
  {
    seq(|gs|, i requires 0 <= i < |gs| => Summary(gs[i]))
  }

  /** Folding from a larger start is folding from 0 and then taking the larger. */
  lemma {:induction false} LatestFromZero(acc: int, ts: seq<int>)
    requires acc >= 0
    ensures Latest(acc, ts) == Max(Latest(0, ts), acc)
    decreases |ts|
  {
    if |ts| > 0 {
      LatestFromZero(acc, ts[..|ts| - 1]);
    }
  }

  /** The watermark over batch summaries is the watermark over the documents in them. */
  lemma {:induction false} LatestOfSummaries(gs: seq<seq<int>>)
    ensures Latest(0, BatchUpdates(Summaries(gs))) == Latest(0, Flatten(gs))
    decreases |gs|
  {
    if |gs| > 0 {
      var n := |gs| - 1;
      LatestOfSummaries(gs[..n]);
      SummaryUpdatesSnoc(gs);
      FlattenLast(gs);
      LatestConcat(Flatten(gs[..n]), gs[n]);
    }
  }

  lemma SummaryUpdatesSnoc(gs: seq<seq<int>>)
    requires |gs| > 0
    ensures var n := |gs| - 1;
      Latest(0, BatchUpdates(Summaries(gs))) == Max(Latest(0, BatchUpdates(Summaries(gs[..n]))), Latest(0, gs[n]))
  {
    var n := |gs| - 1;
    var ts := BatchUpdates(Summaries(gs));
    assert ts[..n] == BatchUpdates(Summaries(gs[..n]));
    assert ts[n] == Latest(0, gs[n]);
    assert Latest(0, ts) == Max(ts[n], Latest(0, ts[..n]));
  }

  lemma FlattenLast<T>(gs: seq<seq<T>>)
    requires |gs| > 0
    ensures Flatten(gs) == Flatten(gs[..|gs| - 1]) + gs[|gs| - 1]
  {
    var n := |gs| - 1;
    assert gs == gs[..n] + [gs[n]];
    FlattenSnoc(gs[..n], gs[n]);
  }

  /** The watermark of a concatenation is the larger of the two watermarks. */
  lemma LatestConcat(xs: seq<int>, ys: seq<int>)
    ensures Latest(0, xs + ys) == Max(Latest(0, xs), Latest(0, ys))
  {
    LatestAppend(0, xs, ys);
    LatestFromZero(Latest(0, xs), ys);
  }

  /** `last_updated_at` at start-up: `parseInt(text, 10)` of the progress file
      when it exists, else 0. Text that does not start with a digit parses to
      `NaN`, which is falsy like 0: no filter. */
  function ReadCheckpoint(file: Option<string>): (c: nat)
    ensures file.None? ==> c == 0
    ensures file.Some? && ParseInt(file.value).None? ==> c == 0
  {
    if file.None? then 0
    else match ParseInt(file.value)
      case None => 0
      case Some(v) => v
  }

  /** Every value the run writes to the progress file is read back unchanged by the
      next run. */
  lemma CheckpointRoundTrip(v: nat)
    ensures ReadCheckpoint(Some(NatToString(v))) == v
  {
    ParseIntOfNatToString(v);
  }

  /** The record filter a restart applies with checkpoint `c` read back from the
      progress file: none when it reads 0, else `updated_at >= c`. */
  predicate ResumeIncludes(c: int, updatedAt: int)
  {
    c == 0 || updatedAt >= c
  }

  /** The watermark of a prefix of ascending timestamps excludes no later record
      on restart. */
  lemma ResumeKeepsRest(ts: seq<int>, m: nat)
    requires NonDecreasing(ts) && m <= |ts|
    ensures forall j :: m <= j < |ts| ==> ResumeIncludes(Latest(0, ts[..m]), ts[j])
  {
    var c := Latest(0, ts[..m]);
    if c != 0 {
      var i :| 0 <= i < m && c == ts[..m][i];
      assert c == ts[i];
    }
  }

  /** The watermark of the first `k` batch summaries is that of the documents in the
      first `k` groups, which are a prefix of all the documents. */
  lemma SummaryPrefixWatermark(gs: seq<seq<int>>, k: nat)
    requires k <= |gs|
    ensures |Flatten(gs[..k])| <= |Flatten(gs)|
    ensures Latest(0, BatchUpdates(Summaries(gs)[..k])) == Latest(0, Flatten(gs)[..|Flatten(gs[..k])|])
  {
    assert Summaries(gs)[..k] == Summaries(gs[..k]);
    LatestOfSummaries(gs[..k]);
    FlattenPrefix(gs, k);
  }

  /** The number of records in the first `k` groups: those already saved once the
      k-th batch has been reduced. */
  function SavedCount<T>(gs: seq<seq<T>>, k: nat): nat
    requires k <= |gs|
  {
    |Flatten(gs[..k])|
  }

  /** Checkpoint safety. Records arrive in ascending `updated_at` order and are
      batched by `Pull.group`. A value written after the k-th batch is the
      watermark of exactly the records those k batches saved, their number is the
      reduce step's running `sum` at that moment, and a restart from the value
      still selects every record not yet saved. */
  lemma CheckpointLosesNoRecord(batchSize: nat, ts: seq<int>)
    requires batchSize > 0 && NonDecreasing(ts)
    ensures var gs := Group(ts, batchSize);
      var ws := Reduce(batchSize, Summaries(gs)).writes;
      forall i :: 0 <= i < |ws| ==>
        && ws[i].afterBatches <= |gs|
        && SavedCount(gs, ws[i].afterBatches) <= |ts|
        && SavedCount(gs, ws[i].afterBatches) == TotalSize(Summaries(gs)[..ws[i].afterBatches])
        && ws[i].value == Latest(0, ts[..SavedCount(gs, ws[i].afterBatches)])
        && forall j :: SavedCount(gs, ws[i].afterBatches) <= j < |ts| ==> ResumeIncludes(ws[i].value, ts[j])
  {
    var gs := Group(ts, batchSize);
    var ws := Reduce(batchSize, Summaries(gs)).writes;
    forall i | 0 <= i < |ws|
      ensures && ws[i].afterBatches <= |gs|
        && SavedCount(gs, ws[i].afterBatches) <= |ts|
        && SavedCount(gs, ws[i].afterBatches) == TotalSize(Summaries(gs)[..ws[i].afterBatches])
        && ws[i].value == Latest(0, ts[..SavedCount(gs, ws[i].afterBatches)])
        && forall j :: SavedCount(gs, ws[i].afterBatches) <= j < |ts| ==> ResumeIncludes(ws[i].value, ts[j])
    {
      WriteIsResumable(batchSize, ts, gs, ws[i]);
      SavedCountIsSum(gs, ws[i].afterBatches);
    }
  }

  lemma WriteIsResumable(batchSize: nat, ts: seq<int>, gs: seq<seq<int>>, w: Write)
    requires batchSize > 0 && NonDecreasing(ts) && Flatten(gs) == ts
    requires WatermarkOfPrefix(batchSize, Summaries(gs), w)
    ensures w.afterBatches <= |gs|
    ensures SavedCount(gs, w.afterBatches) <= |ts|
    ensures w.value == Latest(0, ts[..SavedCount(gs, w.afterBatches)])
    ensures forall j :: SavedCount(gs, w.afterBatches) <= j < |ts| ==> ResumeIncludes(w.value, ts[j])
  {
    var k := w.afterBatches;
    SummaryPrefixWatermark(gs, k);
    var m := SavedCount(gs, k);
    ResumeKeepsRest(ts, m);
  }

  /** The records the first `k` groups hold are the sizes their batches report. */
  lemma SavedCountIsSum(gs: seq<seq<int>>, k: nat)
    requires k <= |gs|
    ensures SavedCount(gs, k) == TotalSize(Summaries(gs)[..k])
  {
    assert Summaries(gs)[..k] == Summaries(gs[..k]);
    TotalSizeOfSummaries(gs[..k]);
  }

  /** The sizes the batches report add up to the records in them. */
  lemma {:induction false} TotalSizeOfSummaries(gs: seq<seq<int>>)
    ensures TotalSize(Summaries(gs)) == |Flatten(gs)|
    decreases |gs|
  {
    if |gs| > 0 {
      var n := |gs| - 1;
      assert Summaries(gs)[..n] == Summaries(gs[..n]);
      TotalSizeOfSummaries(gs[..n]);
      FlattenLast(gs);
    }
  }
}

=== FILE: projection.dfy ===
/** `parsePlunk` (index.js:211-254): a legacy record and its replayed history become
    the document written to the search index. */
module Projection {
  import opened Wrappers
  import opened Snapshot
  import opened Objects
  import opened Dedup
  import opened Replay
  import opened Packages

  /** The fields of a legacy record the importer reads. Absent `tags` and `history`
      read as empty sequences; `views`/`thumbs` are whole numbers. */
  datatype LegacyPlunk = LegacyPlunk(
    id: string,
    forkOf: Option<string>,
    description: string,
    tags: seq<string>,
    createdAt: int,
    updatedAt: int,
    isPrivate: bool,
    user: Option<string>,
    forks: Option<seq<string>>,
    views: Option<nat>,
    thumbs: Option<nat>,
    files: seq<FileEntry>,
    history: seq<Revision>)

  /** The migrated document. Fields the source always sets to `null` (`deleted_at`,
      `session_id`) are left out, and so is `readme`. */
  datatype PlunkDoc = PlunkDoc(
    id: string,
    forkOf: Option<string>,
    title: string,
    tags: seq<string>,
    createdAt: int,
    updatedAt: int,
    viewedAt: int,
    userId: Option<string>,
    packages: map<string, Package>,
    commitSha: Sha,
    treeSha: Sha,
    forksCount: nat,
    revisionsCount: nat,
    commentsCount: nat,
    viewsCount: nat,
    likesCount: nat,
    favoritesCount: nat,
    collections: seq<string>,
    queued: seq<string>)

  /** Everything outside `index.js` that `parsePlunk` reaches: `./lib/git`, the
      patch applier, the semver helpers and the package-reference regex (which, given
      a file content, yields its matches in order). */
  datatype Libraries = Libraries(git: Git, patchApply: PatchApply, semver: Semver, scan: string -> seq<Match>)

  predicate Distinct(s: seq<string>)
  {
    forall i, j :: 0 <= i < j < |s| ==> s[i] != s[j]
  }

  /** The index of the first occurrence of `x` in `s`, or `|s|` when it is absent. */
  function FirstIndex(s: seq<string>, x: string): (k: nat)
    ensures k <= |s|
    ensures k < |s| <==> x in s
    ensures k < |s| ==> s[k] == x && x !in s[..k]
    decreases |s|
  {
    if |s| == 0 then 0
    else
      var n := |s| - 1;
      if x in s[..n] then
        var k := FirstIndex(s[..n], x);
        assert s[..n][..k] == s[..k];
        k
      else if s[n] == x then
        assert s[..n] == s[..|s| - 1];
        n
      else
        assert s == s[..n] + [s[n]];
        |s|
  }

  /** `_.unique(tags)`: the first occurrence of each tag, in order. */
  function Unique(s: seq<string>): (r: seq<string>)
    ensures forall x :: x in r <==> x in s
    ensures Distinct(r)
    ensures |r| <= |s|
    // tags keep the order of their first occurrences
    ensures forall i, j :: 0 <= i < j < |r| ==> FirstIndex(s, r[i]) < FirstIndex(s, r[j])
    decreases |s|
  {
    if |s| == 0 then []
    else
      var n := |s| - 1;
      var u := Unique(s[..n]);
      assert forall x :: x in s <==> x in s[..n] || x == s[n];
      assert forall x :: x in u ==> FirstIndex(s, x) == FirstIndex(s[..n], x);
      if s[n] in u then u
      else
        assert FirstIndex(s, s[n]) == n;
        u + [s[n]]
  }

  /** A repeated tag stays where it first appeared. */
  lemma UniqueKeepsFirst()
    ensures Unique(["a", "b", "a"]) == ["a", "b"]
  {
    assert ["a", "b", "a"][..2] == ["a", "b"];
    assert ["a", "b"][..1] == ["a"];
  }

  /** A tag list without duplicates is kept as it is. */
  lemma {:induction false} UniqueOfDistinct(s: seq<string>)
    requires Distinct(s)
    ensures Unique(s) == s
    decreases |s|
  {
    if |s| > 0 {
      var n := |s| - 1;
      assert Distinct(s[..n]);
      UniqueOfDistinct(s[..n]);
      assert s[n] !in s[..n];
      assert s == s[..n] + [s[n]];
    }
  }

  /** Removing duplicates twice is removing them once. */
  lemma UniqueIdempotent(s: seq<string>)
    ensures Unique(Unique(s)) == Unique(s)
  {
    UniqueOfDistinct(Unique(s));
  }

  /** The files `Git.walk` visits in a tree, each with the matches its content yields. */
  function ScanTree(libs: Libraries, tree: Tree): seq<ScannedFile>
  {
    var walked := libs.git.walk(tree);
    seq(|walked|, i requires 0 <= i < |walked| => ScannedFile(walked[i].path, libs.scan(walked[i].content)))
  }

  /** `parsePlunk(oldPlunk)` with the run's object store. */
  datatype Parsed = Parsed(doc: PlunkDoc, store: ObjectStore)

  function ParsePlunk(libs: Libraries, p: LegacyPlunk, store: ObjectStore): (r: Parsed)
    // revisions_count counts the commits the replay saved
    ensures 1 <= r.doc.revisionsCount
    ensures |p.history| == 0 ==> r.doc.revisionsCount == 1
    ensures |p.history| > 0 ==> r.doc.revisionsCount <= |p.history|
    // forks_count is the number of forks, 0 when absent
    ensures r.doc.forksCount == (if p.forks.Some? then |p.forks.value| else 0)
    // collections: the public collection exactly for public records
    ensures r.doc.collections == (if p.isPrivate then [] else ["plunker/public"])
    // tags: the same tags, each once
    ensures Distinct(r.doc.tags) && forall t :: t in r.doc.tags <==> t in p.tags
    ensures forall i, j :: 0 <= i < j < |r.doc.tags| ==> FirstIndex(p.tags, r.doc.tags[i]) < FirstIndex(p.tags, r.doc.tags[j])
    // the record's id, title and timestamps carry over; viewed_at is updated_at
    ensures r.doc.id == p.id && r.doc.title == p.description
    ensures r.doc.createdAt == p.createdAt && r.doc.updatedAt == p.updatedAt && r.doc.viewedAt == p.updatedAt
    // falsy fork_of and user become null, truthy ones are kept
    ensures r.doc.forkOf.Some? <==> IsTruthy(p.forkOf)
    ensures r.doc.userId.Some? <==> IsTruthy(p.user)
    ensures r.doc.forkOf.Some? ==> r.doc.forkOf == p.forkOf
    ensures r.doc.userId.Some? ==> r.doc.userId == p.user
    // views and likes default to 0; comments, favorites and the queue start empty
    ensures r.doc.viewsCount == (if p.views.Some? then p.views.value else 0)
    ensures r.doc.likesCount == (if p.thumbs.Some? then p.thumbs.value else 0)
    ensures r.doc.commentsCount == 0 && r.doc.favoritesCount == 0 && r.doc.queued == []
    // the seen-filter only grows, and what it marks stays written
    ensures store.seen <= r.store.seen
    ensures Covered(store) ==> Covered(r.store)
    // the shas are those of the last saved commit, whose tree lacks history[0]'s changes
    ensures var v := ParsePlunkVersions(libs.git, libs.patchApply, p.user, p.files, p.history, store);
      && r.doc.commitSha == v.commit.sha
      && r.doc.treeSha == v.commit.tree.sha
      && r.doc.revisionsCount == v.version
      && r.doc.packages == FindPackages(libs.semver, ScanTree(libs, v.commit.tree))
      && r.store == v.store
  {
    var v := ParsePlunkVersions(libs.git, libs.patchApply, p.user, p.files, p.history, store);
    var packages := FindPackages(libs.semver, ScanTree(libs, v.commit.tree));
    var doc := PlunkDoc(
      id := p.id,
      forkOf := if IsTruthy(p.forkOf) then p.forkOf else None,
      title := p.description,
      tags := Unique(p.tags),
      createdAt := p.createdAt,
      updatedAt := p.updatedAt,
      viewedAt := p.updatedAt,
      userId := if IsTruthy(p.user) then p.user else None,
      packages := packages,
      commitSha := v.commit.sha,
      treeSha := v.commit.tree.sha,
      forksCount := if p.forks.Some? then |p.forks.value| else 0,
      revisionsCount := v.version,
      commentsCount := 0,
      viewsCount := p.views.GetOr(0),
      likesCount := p.thumbs.GetOr(0),
      favoritesCount := 0,
      collections := if p.isPrivate then [] else ["plunker/public"],
      queued := []);
    Parsed(doc, v.store)
  }

  /** A record without history migrates to a document with one revision whose tree
      holds exactly the record's files. */
  lemma NoHistoryDocument(libs: Libraries, p: LegacyPlunk, store: ObjectStore)
    requires |p.history| == 0
    ensures var r := ParsePlunk(libs, p, store);
      var v := ParsePlunkVersions(libs.git, libs.patchApply, p.user, p.files, p.history, store);
      r.doc.revisionsCount == 1 && v.commit.parents == [] && v.commit.message == "Initial commit" &&
      v.commit.tree == TreeOf(libs.git, FromFiles(p.files))
  {
    var v := ParsePlunkVersions(libs.git, libs.patchApply, p.user, p.files, p.history, store);
    assert IsLink(libs.git, p.user, v.chain, 0);
  }
}

=== FILE: replay.dfy ===
/** The revision replay (`parsePlunkVersions`, index.js:55-163): the working set
    starts as the record's current files; the history is walked from its last index
    down to index 0; at each revision the working set is hashed into a tree, a commit
    is saved when there is no previous commit or the tree sha changed, and only then
    are the revision's own changes applied. */
module Replay {
  import opened Wrappers
  import opened Decimal
  import opened Snapshot
  import opened Objects
  import opened Dedup

  /** The replay's variables: the working set `files`, `lastCommit`, `version`, the
      object store, and `chain`, the trace of every commit handed to `saveCommit`
      (the source keeps only the last one; the trace is what the store received). */
  datatype ReplayState = ReplayState(
    files: Files,
    last: Option<Commit>,
    version: nat,
    chain: seq<Commit>,
    store: ObjectStore)

  /** The message of the commit saved when `version` commits exist already. For a
      later version, the text after "Revision " is the canonical decimal of the
      version: digits only, no leading zero, and `parseInt` reads it back. */
  function MessageFor(version: nat): (m: string)
    ensures version == 0 ==> m == "Initial commit"
    ensures version > 0 ==> |m| > 9 && m[..9] == "Revision "
    ensures version > 0 ==> forall i :: 9 <= i < |m| ==> IsDigit(m[i])
    ensures version > 0 && |m| > 10 ==> m[9] != '0'
    ensures version > 0 ==> ParseInt(m[9..]) == Some(version)
  {
    ParseIntOfNatToString(version);
    assert version > 0 ==> ("Revision " + NatToString(version))[9..] == NatToString(version);
    if version == 0 then "Initial commit" else "Revision " + NatToString(version)
  }

  /** The clauses of `MessageFor` leave one message per later version: any text
      that starts with "Revision " and continues with canonical digits reading back
      as the version is that message. */
  lemma MessageDeterminedByVersion(version: nat, m: string)
    requires version > 0 && |m| > 9 && m[..9] == "Revision "
    requires forall i :: 9 <= i < |m| ==> IsDigit(m[i])
    requires |m| > 10 ==> m[9] != '0'
    requires ParseInt(m[9..]) == Some(version)
    ensures m == MessageFor(version)
  {
    var t := m[9..];
    assert forall i :: 0 <= i < |t| ==> IsDigit(t[i]) by {
      forall i | 0 <= i < |t| ensures IsDigit(t[i]) {
        assert t[i] == m[9 + i];
      }
    }
    PrefixLengthOfDigits(t);
    assert t[..|t|] == t;
    assert |t| > 1 ==> t[0] == m[9];
    CanonicalIsNatToString(t);
    assert m == m[..9] + t;
  }

  /** No two positions of a chain share a message. */
  lemma MessagesDistinct(a: nat, b: nat)
    requires a != b
    ensures MessageFor(a) != MessageFor(b)
  {
    if a == 0 || b == 0 {
      assert MessageFor(a)[0] != MessageFor(b)[0];
    }
  }

  /** `saveCommit(commit)`: objects through the seen-filter, then `lastCommit` and
      `version` advance. */
  function SaveCommit(git: Git, c: Commit, st: ReplayState): (r: ReplayState)
    ensures r.last == Some(c) && r.version == st.version + 1 && r.chain == st.chain + [c]
    ensures r.files == st.files
    // every object of the commit ends up marked seen and, from a covered store, written
    ensures r.store.seen == st.store.seen + git.objectsOf(c).Keys
    ensures Covered(st.store) ==> Covered(r.store) && git.objectsOf(c).Keys <= r.store.stored.Keys
  {
    st.(last := Some(c), version := st.version + 1, chain := st.chain + [c],
        store := SaveObjects(git.objectsOf(c), st.store))
  }

  /** `[lastCommit.sha]`, or no parent before the first commit. */
  function ParentsOf(last: Option<Commit>): seq<Sha>
  {
    if last.Some? then [last.value.sha] else []
  }

  /** Whether a revision step saves a commit: there is none yet, or the working set
      hashes to a different tree than the last commit's. */
  predicate Emits(git: Git, st: ReplayState)
  {
    st.last.None? || TreeOf(git, st.files).sha != st.last.value.tree.sha
  }

  /** `parseRevision(revision)`. */
  function ParseRevision(git: Git, apply: PatchApply, user: Option<string>, rev: Revision, st: ReplayState): (r: ReplayState)
    // the tree is taken before this revision's changes, which then reach the working set
    ensures r.files == ApplyChanges(st.files, apply, rev)
    ensures r.last.Some? && r.last.value.tree.sha == TreeOf(git, st.files).sha
    // a commit is saved exactly when there is no previous one or the tree changed
    ensures Emits(git, st) ==>
      && r.version == st.version + 1
      && r.chain == st.chain + [r.last.value]
      && r.last.value.tree == TreeOf(git, st.files)
      && r.last.value.message == MessageFor(st.version)
      && r.last.value.parents == ParentsOf(st.last)
      && r.store == SaveObjects(git.objectsOf(r.last.value), st.store)
    ensures !Emits(git, st) ==>
      r.version == st.version && r.chain == st.chain && r.last == st.last && r.store == st.store
  {
    var tree := TreeOf(git, st.files);
    var message, parents := MessageFor(st.version), ParentsOf(st.last);
    var st1 :=
      if st.last.None? || tree.sha != st.last.value.tree.sha then
        SaveCommit(git, Commit(git.commitSha(tree.sha, message, user, parents), tree, message, user, parents), st)
      else st;
    st1.(files := ApplyChanges(st.files, apply, rev))
  }

  /** `_.forEachRight(history, parseRevision)`: the last revision first. */
  function Replay(git: Git, apply: PatchApply, user: Option<string>, history: seq<Revision>, st: ReplayState): (r: ReplayState)
    ensures r.files == ApplyRevisions(st.files, apply, history)
    ensures st.version <= r.version <= st.version + |history|
    ensures |history| > 0 ==> r.last.Some?
    ensures |history| == 0 ==> r == st
    ensures |st.chain| <= |r.chain| && r.chain[..|st.chain|] == st.chain
    ensures st.store.seen <= r.store.seen
    decreases |history|
  {
    if |history| == 0 then st
    else
      var n := |history| - 1;
      var st1 := ParseRevision(git, apply, user, history[n], st);
      var r := Replay(git, apply, user, history[..n], st1);
      assert st1.chain[..|st.chain|] == st.chain;
      assert r.chain[..|st.chain|] == r.chain[..|st1.chain|][..|st.chain|];
      r
  }

  // ---------------------------------------------------------------------------
  // The commit chain

  /** Position `i` of a chain is a commit the replay could have saved there: its
      message counts the commits before it, its only parent is the previous commit,
      its author is the record's user, its shas are the hashes of what it holds, and
      its tree differs from the previous commit's tree. */
  predicate IsLink(git: Git, user: Option<string>, chain: seq<Commit>, i: nat)
    requires i < |chain|
  {
    var c := chain[i];
    && c.message == MessageFor(i)
    && c.author == user
    && c.parents == (if i == 0 then [] else [chain[i - 1].sha])
    && HashedTree(git, c.tree)
    && c.sha == git.commitSha(c.tree.sha, c.message, c.author, c.parents)
    && (i > 0 ==> c.tree.sha != chain[i - 1].tree.sha)
  }

  /** A strictly linear history rooted at a parentless "Initial commit". */
  predicate LinearChain(git: Git, user: Option<string>, chain: seq<Commit>)
  {
    forall i :: 0 <= i < |chain| ==> IsLink(git, user, chain, i)
  }

  /** What holds of the replay state between two revision steps. */
  predicate ChainInv(git: Git, user: Option<string>, st: ReplayState)
  {
    && |st.chain| == st.version
    && st.last == (if |st.chain| == 0 then None else Some(st.chain[|st.chain| - 1]))
    && LinearChain(git, user, st.chain)
    && Covered(st.store)
    && forall i :: 0 <= i < |st.chain| ==> git.objectsOf(st.chain[i]).Keys <= st.store.seen
  }

  lemma LinkOfPrefix(git: Git, user: Option<string>, chain: seq<Commit>, c: Commit, i: nat)
    requires i < |chain|
    ensures IsLink(git, user, chain + [c], i) == IsLink(git, user, chain, i)
  {
    assert (chain + [c])[i] == chain[i];
    if i > 0 {
      assert (chain + [c])[i - 1] == chain[i - 1];
    }
  }

  lemma LinearChainSnoc(git: Git, user: Option<string>, chain: seq<Commit>, c: Commit)
    requires LinearChain(git, user, chain)
    requires IsLink(git, user, chain + [c], |chain|)
    ensures LinearChain(git, user, chain + [c])
  {
    forall i | 0 <= i < |chain + [c]| ensures IsLink(git, user, chain + [c], i) {
      if i < |chain| {
        assert IsLink(git, user, chain, i);
        LinkOfPrefix(git, user, chain, c, i);
      }
    }
  }

  lemma ParseRevisionKeepsChain(git: Git, apply: PatchApply, user: Option<string>, rev: Revision, st: ReplayState)
    requires ChainInv(git, user, st)
    ensures ChainInv(git, user, ParseRevision(git, apply, user, rev, st))
  {
    var r := ParseRevision(git, apply, user, rev, st);
    if Emits(git, st) {
      var c := r.last.value;
      var n := |st.chain|;
      assert r.chain[n] == c;
      assert IsLink(git, user, st.chain + [c], n);
      LinearChainSnoc(git, user, st.chain, c);
      forall i | 0 <= i < |r.chain| ensures git.objectsOf(r.chain[i]).Keys <= r.store.seen {
        if i < n {
          assert r.chain[i] == st.chain[i];
        }
      }
    }
  }

  /** The replay keeps the chain invariant: whatever the history, the commits saved
      form one linear chain, `version` counts them, `lastCommit` is the newest, and
      every object of every commit is marked seen and written. */
  lemma {:induction false} ReplayKeepsChain(git: Git, apply: PatchApply, user: Option<string>, history: seq<Revision>, st: ReplayState)
    requires ChainInv(git, user, st)
    ensures ChainInv(git, user, Replay(git, apply, user, history, st))
    decreases |history|
  {
    if |history| > 0 {
      var n := |history| - 1;
      ParseRevisionKeepsChain(git, apply, user, history[n], st);
      ReplayKeepsChain(git, apply, user, history[..n], ParseRevision(git, apply, user, history[n], st));
    }
  }

  // ---------------------------------------------------------------------------
  // Replay order

  /** The tree of the last commit is the working set just before `history[0]`'s
      changes: every later revision (higher index) has been applied, `history[0]`
      has not. */
  lemma {:induction false} LastTreeBeforeFirstRevision(git: Git, apply: PatchApply, user: Option<string>, history: seq<Revision>, st: ReplayState)
    requires |history| > 0
    ensures Replay(git, apply, user, history, st).last.Some?
    ensures Replay(git, apply, user, history, st).last.value.tree.sha ==
            TreeOf(git, ApplyRevisions(st.files, apply, history[1..])).sha
    decreases |history|
  {
    var n := |history| - 1;
    var st1 := ParseRevision(git, apply, user, history[n], st);
    var r := Replay(git, apply, user, history[..n], st1);
    assert Replay(git, apply, user, history, st) == r;
    if n > 0 {
      LastTreeBeforeFirstRevision(git, apply, user, history[..n], st1);
      LaterRevisionsPeel(st.files, apply, history);
    } else {
      assert history[1..] == [];
      assert r == st1;
    }
  }

  /** Every revision above index 0, replayed, is the last one applied and then the
      rest of them. */
  lemma LaterRevisionsPeel(files: Files, apply: PatchApply, history: seq<Revision>)
    requires |history| > 1
    ensures var n := |history| - 1;
      ApplyRevisions(files, apply, history[1..])
        == ApplyRevisions(ApplyChanges(files, apply, history[n]), apply, history[..n][1..])
  {
    var n := |history| - 1;
    var later := history[1..];
    assert history[..n][1..] == later[..n - 1];
    assert later[n - 1] == history[n];
  }

  /** The working set as the step for revision `i` finds it: every revision above
      `i` applied, `i` and those below it not. */
  function SnapshotBefore(files: Files, apply: PatchApply, history: seq<Revision>, i: nat): Files
    requires i < |history|
  {
    ApplyRevisions(files, apply, history[i + 1..])
  }

  /** `c` holds the working set as the step of some revision found it. */
  ghost predicate TreeOfSomeStep(git: Git, apply: PatchApply, files: Files, history: seq<Revision>, c: Commit)
  {
    exists i: nat :: i < |history| && c.tree == TreeOf(git, SnapshotBefore(files, apply, history, i))
  }

  /** Every commit the replay saves holds the working set as the step of some
      revision `i` found it. */
  lemma {:induction false} CommitTreesAreSnapshots(git: Git, apply: PatchApply, user: Option<string>, history: seq<Revision>, st: ReplayState)
    ensures var r := Replay(git, apply, user, history, st);
      forall k :: |st.chain| <= k < |r.chain| ==> TreeOfSomeStep(git, apply, st.files, history, r.chain[k])
    decreases |history|
  {
    if |history| > 0 {
      var n := |history| - 1;
      var st1 := ParseRevision(git, apply, user, history[n], st);
      var r := Replay(git, apply, user, history, st);
      assert r == Replay(git, apply, user, history[..n], st1);
      CommitTreesAreSnapshots(git, apply, user, history[..n], st1);
      forall k | |st.chain| <= k < |r.chain|
        ensures TreeOfSomeStep(git, apply, st.files, history, r.chain[k])
      {
        if k < |st1.chain| {
          assert Emits(git, st) && k == |st.chain|;
          assert r.chain[k] == st1.chain[k];
          SnapshotBeforeLast(st.files, apply, history);
        } else {
          assert TreeOfSomeStep(git, apply, st1.files, history[..n], r.chain[k]);
          var i: nat :| i < n && r.chain[k].tree == TreeOf(git, SnapshotBefore(st1.files, apply, history[..n], i));
          SnapshotBeforeShift(st.files, apply, history, i);
        }
      }
    }
  }

  /** The last revision's step finds the working set untouched. */
  lemma SnapshotBeforeLast(files: Files, apply: PatchApply, history: seq<Revision>)
    requires |history| > 0
    ensures SnapshotBefore(files, apply, history, |history| - 1) == files
  {
    assert history[|history|..] == [];
  }

  /** Seen from the replay of the rest, the step of revision `i` finds the same
      working set once the last revision has been applied first. */
  lemma SnapshotBeforeShift(files: Files, apply: PatchApply, history: seq<Revision>, i: nat)
    requires i < |history| - 1
    ensures var n := |history| - 1;
      SnapshotBefore(files, apply, history, i)
        == SnapshotBefore(ApplyChanges(files, apply, history[n]), apply, history[..n], i)
  {
    var n := |history| - 1;
    var tail := history[i + 1..];
    assert tail[|tail| - 1] == history[n];
    assert tail[..|tail| - 1] == history[..n][i + 1..];
  }

  /** The changes of `history[0]` never reach a saved commit: two histories that
      differ only in their first revision save the same commits, count the same
      version and leave the same object store. */
  lemma {:induction false} FirstRevisionNeverCommitted(git: Git, apply: PatchApply, user: Option<string>, h1: seq<Revision>, h2: seq<Revision>, st: ReplayState)
    requires |h1| == |h2| > 0 && h1[1..] == h2[1..]
    ensures var r1, r2 := Replay(git, apply, user, h1, st), Replay(git, apply, user, h2, st);
      r1.chain == r2.chain && r1.last == r2.last && r1.version == r2.version && r1.store == r2.store
    decreases |h1|
  {
    var n := |h1| - 1;
    if n == 0 {
      var a := ParseRevision(git, apply, user, h1[0], st);
      var b := ParseRevision(git, apply, user, h2[0], st);
      assert a.chain == b.chain && a.last == b.last && a.version == b.version && a.store == b.store;
    } else {
      assert h1[n] == h1[1..][n - 1] == h2[n];
      assert h1[..n][1..] == h1[1..][..n - 1] == h2[..n][1..];
      FirstRevisionNeverCommitted(git, apply, user, h1[..n], h2[..n], ParseRevision(git, apply, user, h1[n], st));
    }
  }

  // ---------------------------------------------------------------------------
  // Commit collapsing

  /** A revision whose changes leave the working set as it was is followed by no
      commit: the next step sees the tree the last commit already has. */
  lemma UnchangedRevisionCollapses(git: Git, apply: PatchApply, user: Option<string>, r1: Revision, r2: Revision, st: ReplayState)
    requires ApplyChanges(st.files, apply, r1) == st.files
    ensures var st1 := ParseRevision(git, apply, user, r1, st);
      !Emits(git, st1) && ParseRevision(git, apply, user, r2, st1).version == st1.version
  {
  }

  /** With collision-free tree hashing, a step saves a commit exactly when the
      working set differs from the last commit's tree listing. */
  lemma EmitsIffFilesChanged(git: Git, user: Option<string>, st: ReplayState)
    requires TreeShaInjective(git)
    requires ChainInv(git, user, st) && st.last.Some?
    ensures Emits(git, st) <==> ToFilesArray(st.files) != st.last.value.tree.entries
  {
    var c := st.last.value;
    assert c == st.chain[|st.chain| - 1];
    assert IsLink(git, user, st.chain, |st.chain| - 1);
    assert HashedTree(git, c.tree);
  }

  // ---------------------------------------------------------------------------
  // parsePlunkVersions

  /** `{commit: lastCommit, version}`, with the commits saved and the object store after the run. */
  datatype Versions = Versions(commit: Commit, version: nat, chain: seq<Commit>, store: ObjectStore)

  /** The replay state before any revision: the record's files, no commit yet. */
  function Start(files: seq<FileEntry>, store: ObjectStore): ReplayState
  {
    ReplayState(FromFiles(files), None, 0, [], store)
  }

  /** `parsePlunkVersions(oldPlunk)`. Without history, one parentless "Initial
      commit" of the current files; otherwise the replay, which saves between one
      commit and one per revision. Either way the commits form one linear chain whose
      last element is the returned commit, `version` counts them, and every object
      they reach is marked seen and written. */
  function ParsePlunkVersions(git: Git, apply: PatchApply, user: Option<string>, files: seq<FileEntry>, history: seq<Revision>, store: ObjectStore): (r: Versions)
    ensures r.version == |r.chain| >= 1
    ensures |history| == 0 ==> r.version == 1
    ensures |history| > 0 ==> r.version <= |history|
    ensures r.commit == r.chain[|r.chain| - 1]
    ensures LinearChain(git, user, r.chain)
    ensures store.seen <= r.store.seen
    ensures Covered(store) ==> Covered(r.store)
    ensures Covered(store) ==> forall i :: 0 <= i < |r.chain| ==> git.objectsOf(r.chain[i]).Keys <= r.store.seen
    ensures |history| == 0 ==> r.commit.tree == TreeOf(git, FromFiles(files))
    ensures |history| > 0 ==> r.commit.tree.sha == TreeOf(git, ApplyRevisions(FromFiles(files), apply, history[1..])).sha
  {
    var st0 := Start(files, store);
    if |history| == 0 then
      var tree := TreeOf(git, FromFiles(files));
      var c := Commit(git.commitSha(tree.sha, "Initial commit", user, []), tree, "Initial commit", user, []);
      var st := SaveCommit(git, c, st0);
      assert st.chain == [c];
      assert Covered(store) ==> ChainInv(git, user, st) by {
        assert IsLink(git, user, st.chain, 0);
      }
      Versions(c, st.version, st.chain, st.store)
    else
      var st := Replay(git, apply, user, history, st0);
      ReplayChainFromStart(git, apply, user, history, st0);
      LastTreeBeforeFirstRevision(git, apply, user, history, st0);
      Versions(st.last.value, st.version, st.chain, st.store)
  }

  lemma ReplayChainFromStart(git: Git, apply: PatchApply, user: Option<string>, history: seq<Revision>, st0: ReplayState)
    requires st0.last.None? && st0.version == 0 && st0.chain == []
    ensures var st := Replay(git, apply, user, history, st0);
      LinearChain(git, user, st.chain) && |st.chain| == st.version &&
      (|history| > 0 ==> st.last == Some(st.chain[|st.chain| - 1])) &&
      (Covered(st0.store) ==>
         Covered(st.store) && forall i :: 0 <= i < |st.chain| ==> git.objectsOf(st.chain[i]).Keys <= st.store.seen)
  {
    var st := Replay(git, apply, user, history, st0);
    var any := st0.(store := ObjectStore({}, map[]));
    var ra := Replay(git, apply, user, history, any);
    assert ChainInv(git, user, any);
    ReplayKeepsChain(git, apply, user, history, any);
    ReplaySameChainAnyStore(git, apply, user, history, st0, any);
    assert st.chain == ra.chain && st.last == ra.last && st.version == ra.version;
    if Covered(st0.store) {
      ReplayKeepsChain(git, apply, user, history, st0);
    }
  }

  /** The commits saved never depend on the object store. */
  lemma {:induction false} ReplaySameChainAnyStore(git: Git, apply: PatchApply, user: Option<string>, history: seq<Revision>, a: ReplayState, b: ReplayState)
    requires a.files == b.files && a.last == b.last && a.version == b.version && a.chain == b.chain
    ensures var ra, rb := Replay(git, apply, user, history, a), Replay(git, apply, user, history, b);
      ra.chain == rb.chain && ra.last == rb.last && ra.version == rb.version
    decreases |history|
  {
    if |history| > 0 {
      var n := |history| - 1;
      ReplaySameChainAnyStore(git, apply, user, history[..n],
        ParseRevision(git, apply, user, history[n], a), ParseRevision(git, apply, user, history[n], b));
    }
  }

  /** A record without history gets the same commit as one whose only revision has
      no changes. */
  lemma NoHistoryIsOneEmptyRevision(git: Git, apply: PatchApply, user: Option<string>, files: seq<FileEntry>, store: ObjectStore)
    ensures ParsePlunkVersions(git, apply, user, files, [], store) == ParsePlunkVersions(git, apply, user, files, [[]], store)
  {
    var h: seq<Revision> := [[]];
    assert h[..0] == [];
  }
}

=== FILE: snapshot.dfy ===
/** The replay's working file set and the four edits a revision's change records
    apply to it (index.js:55-63, 112-161). */
module Snapshot {
  import opened Wrappers

  type Path = string

  /** Filename to content. The source keeps each file as `{filename, content}` under
      its filename; the two always agree, so the key is the filename. */
  type Files = map<Path, string>

  /** One entry of a legacy record's `files` array. */
  datatype FileEntry = FileEntry(filename: Path, content: string)

  /** One change record `{fn, pn, pl}`: previous name, new name, patch text. Which
      fields are truthy decides what the change does. */
  datatype Change = Change(fn: Option<string>, pn: Option<string>, pl: Option<string>)

  /** A revision's `changes`, in listed order. */
  type Revision = seq<Change>

  /** Patch-text application (`patch_apply(patch_fromText(pl), content)[0]`), applied
      to a patch text and a content. The source never inspects the success flags, so
      applying a patch is total. */
  type PatchApply = (string, string) -> string

  /** `entries[i]` is the last entry carrying its filename. */
  predicate IsLastNamed(entries: seq<FileEntry>, i: int)
  {
    0 <= i < |entries| &&
    forall j :: i < j < |entries| ==> entries[j].filename != entries[i].filename
  }

  function Filenames(entries: seq<FileEntry>): set<Path>
  {
    set e | e in entries :: e.filename
  }

  /** The initial working set built from a record's files: one key per filename, the
      later of two same-named entries winning. */
  function FromFiles(entries: seq<FileEntry>): (m: Files)
    ensures m.Keys == Filenames(entries)
    ensures forall i :: IsLastNamed(entries, i) ==> m[entries[i].filename] == entries[i].content
    decreases |entries|
  {
    if |entries| == 0 then map[]
    else
      var n := |entries| - 1;
      var m0 := FromFiles(entries[..n]);
      FromFilesLast(entries, m0);
      m0[entries[n].filename := entries[n].content]
  }

  lemma FilenamesSnoc(init: seq<FileEntry>, last: FileEntry)
    ensures Filenames(init + [last]) == Filenames(init) + {last.filename}
  {
    var entries := init + [last];
    forall p | p in Filenames(entries) ensures p in Filenames(init) + {last.filename} {
      var e :| e in entries && e.filename == p;
      if e != last {
        assert e in init;
      }
    }
    forall p | p in Filenames(init) ensures p in Filenames(entries) {
      var e :| e in init && e.filename == p;
      assert e in entries;
    }
    assert last in entries;
  }

  lemma LastNamedInit(init: seq<FileEntry>, last: FileEntry, i: int)
    requires IsLastNamed(init + [last], i) && i < |init|
    ensures IsLastNamed(init, i) && init[i] == (init + [last])[i]
    ensures last.filename != init[i].filename
  {
    var entries := init + [last];
    forall j | i < j < |init| ensures init[j].filename != init[i].filename {
      assert init[j] == entries[j];
    }
    assert entries[|init|] == last;
  }

  lemma FromFilesLast(entries: seq<FileEntry>, m0: Files)
    requires |entries| > 0
    requires var init := entries[..|entries| - 1];
      && m0.Keys == Filenames(init)
      && forall i :: IsLastNamed(init, i) ==> m0[init[i].filename] == init[i].content
    ensures var last := entries[|entries| - 1]; var m := m0[last.filename := last.content];
      && m.Keys == Filenames(entries)
      && forall i :: IsLastNamed(entries, i) ==> m[entries[i].filename] == entries[i].content
  {
    var n := |entries| - 1;
    FromFilesStep(entries[..n], entries[n], m0);
    assert entries == entries[..n] + [entries[n]];
  }

  lemma FromFilesStep(init: seq<FileEntry>, last: FileEntry, m0: Files)
    requires m0.Keys == Filenames(init)
    requires forall i :: IsLastNamed(init, i) ==> m0[init[i].filename] == init[i].content
    ensures var entries := init + [last]; var m := m0[last.filename := last.content];
      m.Keys == Filenames(entries) &&
      forall i :: IsLastNamed(entries, i) ==> m[entries[i].filename] == entries[i].content
  {
    var entries := init + [last];
    var m := m0[last.filename := last.content];
    FilenamesSnoc(init, last);
    forall i | IsLastNamed(entries, i)
      ensures m[entries[i].filename] == entries[i].content
    {
      if i < |init| {
        LastNamedInit(init, last, i);
      }
    }
  }

  /** `patch(fn, patches)`: rewrites the content of `fn` through the patch, and does
      nothing when `fn` is not a file. */
  function Patch(files: Files, apply: PatchApply, fn: Path, patchText: string): (r: Files)
    ensures r.Keys == files.Keys
    ensures forall p :: p in files && p != fn ==> r[p] == files[p]
    ensures fn in files ==> r[fn] == apply(patchText, files[fn])
  {
    if fn in files then files[fn := apply(patchText, files[fn])] else files
  }

  /** `rename(fn, to)`: moves the content of `fn` to `to`, replacing whatever `to`
      held; a missing `fn` leaves the set unchanged. */
  function Rename(files: Files, fn: Path, to: Path): (r: Files)
    ensures fn !in files ==> r == files
    ensures fn in files ==> r.Keys == files.Keys - {fn} + {to}
    ensures fn in files ==> r[to] == files[fn]
    ensures forall p :: p in files && p != fn && p != to ==> p in r && r[p] == files[p]
  {
    if fn in files then (files - {fn})[to := files[fn]] else files
  }

  /** `remove(fn)`: `fn` is gone and nothing else changes. */
  function Remove(files: Files, fn: Path): (r: Files)
    ensures r.Keys == files.Keys - {fn}
    ensures forall p :: p in r ==> r[p] == files[p]
  {
    files - {fn}
  }

  /** Renaming onto a free name and back restores the working set. */
  lemma RenameBack(files: Files, a: Path, b: Path)
    requires a in files && b !in files
    ensures Rename(Rename(files, a, b), b, a) == files
  {
    var r := Rename(Rename(files, a, b), b, a);
    assert r.Keys == files.Keys;
    assert forall p :: p in r ==> r[p] == files[p];
  }

  /** One change record as the source dispatches it on the truthiness of its fields:
      `pn` and `fn` patch `fn` (when `pl` is truthy) and then rename it to `pn` (when
      the names differ); `pn` alone creates or overwrites `pn` with `pl`; `fn` alone
      deletes `fn`; otherwise nothing happens. A created file whose `pl` is absent
      gets the empty content. */
  function ApplyChange(files: Files, apply: PatchApply, chg: Change): (r: Files)
    // create
    ensures IsTruthy(chg.pn) && !IsTruthy(chg.fn) ==>
      r.Keys == files.Keys + {chg.pn.value} && r[chg.pn.value] == chg.pl.GetOr("")
    // delete
    ensures !IsTruthy(chg.pn) && IsTruthy(chg.fn) ==> r.Keys == files.Keys - {chg.fn.value}
    // neither name
    ensures !IsTruthy(chg.pn) && !IsTruthy(chg.fn) ==> r == files
    // edit of a missing file
    ensures IsTruthy(chg.pn) && IsTruthy(chg.fn) && chg.fn.value !in files ==> r == files
    // edit (rename and/or patch) of an existing file
    ensures IsTruthy(chg.pn) && IsTruthy(chg.fn) && chg.fn.value in files ==>
      && r.Keys == files.Keys - {chg.fn.value} + {chg.pn.value}
      && r[chg.pn.value] ==
           (if IsTruthy(chg.pl) then apply(chg.pl.value, files[chg.fn.value]) else files[chg.fn.value])
    // every other file keeps its content
    ensures forall p :: p in files && Some(p) != chg.fn && Some(p) != chg.pn ==> p in r && r[p] == files[p]
    ensures forall p :: p in r ==> p in files || Some(p) == chg.pn
  {
    if IsTruthy(chg.pn) then
      if IsTruthy(chg.fn) then
        var patched := if IsTruthy(chg.pl) then Patch(files, apply, chg.fn.value, chg.pl.value) else files;
        if chg.pn.value != chg.fn.value then Rename(patched, chg.fn.value, chg.pn.value) else patched
      else
        files[chg.pn.value := chg.pl.GetOr("")]
    else if IsTruthy(chg.fn) then
      Remove(files, chg.fn.value)
    else
      files
  }

  /** A change record read once as a tagged edit. */
  datatype Edit =
    | Create(path: Path, content: string)
    | Delete(path: Path)
    | Move(from: Path, to: Path)
    | Modify(path: Path, patchText: string)
    | MoveAndModify(from: Path, to: Path, patchText: string)
    | NoEdit

  /** Decides which edit a change record denotes. */
  function Classify(chg: Change): Edit
  {
    if IsTruthy(chg.pn) && IsTruthy(chg.fn) then
      var from, to := chg.fn.value, chg.pn.value;
      if from == to then
        (if IsTruthy(chg.pl) then Modify(from, chg.pl.value) else NoEdit)
      else
        (if IsTruthy(chg.pl) then MoveAndModify(from, to, chg.pl.value) else Move(from, to))
    else if IsTruthy(chg.pn) then Create(chg.pn.value, chg.pl.GetOr(""))
    else if IsTruthy(chg.fn) then Delete(chg.fn.value)
    else NoEdit
  }

  /** The meaning of each tagged edit, stated on its own. */
  function ApplyEdit(files: Files, apply: PatchApply, e: Edit): Files
  {
    match e
    case Create(p, c) => files[p := c]
    case Delete(p) => files - {p}
    case Move(a, b) => if a in files then (files - {a})[b := files[a]] else files
    case Modify(p, t) => if p in files then files[p := apply(t, files[p])] else files
    case MoveAndModify(a, b, t) => if a in files then (files - {a})[b := apply(t, files[a])] else files
    case NoEdit => files
  }

  /** The field-truthiness dispatch of the source is the tagged edit it denotes. */
  lemma ApplyChangeIsEdit(files: Files, apply: PatchApply, chg: Change)
    ensures ApplyChange(files, apply, chg) == ApplyEdit(files, apply, Classify(chg))
  {
  }

  /** Names a change record may touch. */
  function Touched(chg: Change): set<Path>
  {
    (if IsTruthy(chg.fn) then {chg.fn.value} else {}) + (if IsTruthy(chg.pn) then {chg.pn.value} else {})
  }

  function TouchedBy(rev: Revision): set<Path>
  {
    set i, p | 0 <= i < |rev| && p in Touched(rev[i]) :: p
  }

  /** A revision's changes applied in listed order. Files no change names keep their
      content, and new names come only from the changes. */
  function ApplyChanges(files: Files, apply: PatchApply, rev: Revision): (r: Files)
    ensures forall p :: p in files && p !in TouchedBy(rev) ==> p in r && r[p] == files[p]
    ensures forall p :: p in r ==> p in files || p in TouchedBy(rev)
    decreases |rev|
  {
    if |rev| == 0 then files
    else
      var r := ApplyChanges(ApplyChange(files, apply, rev[0]), apply, rev[1..]);
      assert forall p :: p in TouchedBy(rev[1..]) ==> p in TouchedBy(rev) by {
        forall p | p in TouchedBy(rev[1..]) ensures p in TouchedBy(rev) {
          var i :| 0 <= i < |rev[1..]| && p in Touched(rev[1..][i]);
          assert rev[1..][i] == rev[i + 1];
        }
      }
      assert forall p :: p in Touched(rev[0]) ==> p in TouchedBy(rev);
      r
  }

  /** A revision split in two is the first part applied, then the second: the
      changes take effect in listed order. */
  lemma {:induction false} ApplyChangesAppend(files: Files, apply: PatchApply, a: Revision, b: Revision)
    ensures ApplyChanges(files, apply, a + b) == ApplyChanges(ApplyChanges(files, apply, a), apply, b)
    decreases |a|
  {
    if |a| == 0 {
      assert a + b == b;
    } else {
      assert (a + b)[0] == a[0];
      assert (a + b)[1..] == a[1..] + b;
      ApplyChangesAppend(ApplyChange(files, apply, a[0]), apply, a[1..], b);
    }
  }

  /** A revision of one change is that change. */
  lemma ApplyChangesSingle(files: Files, apply: PatchApply, c: Change)
    ensures ApplyChanges(files, apply, [c]) == ApplyChange(files, apply, c)
  {
    assert [c][1..] == [];
  }

  /** Names some revision of a history may touch. */
  function TouchedByAll(history: seq<Revision>): set<Path>
    decreases |history|
  {
    if |history| == 0 then {} else TouchedBy(history[|history| - 1]) + TouchedByAll(history[..|history| - 1])
  }

  /** The working set after the revisions of a newest-first history have been
      replayed from the last index down to the first. */
  function ApplyRevisions(files: Files, apply: PatchApply, history: seq<Revision>): Files
    decreases |history|
  {
    if |history| == 0 then files
    else ApplyRevisions(ApplyChanges(files, apply, history[|history| - 1]), apply, history[..|history| - 1])
  }

  /** A replayed history keeps every file no revision names, and every file it
      leaves was there before or is named by some revision. */
  lemma {:induction false} ApplyRevisionsFrame(files: Files, apply: PatchApply, history: seq<Revision>)
    ensures var r := ApplyRevisions(files, apply, history);
      && (forall p :: p in files && p !in TouchedByAll(history) ==> p in r && r[p] == files[p])
      && (forall p :: p in r ==> p in files || p in TouchedByAll(history))
    decreases |history|
  {
    if |history| > 0 {
      var n := |history| - 1;
      ApplyRevisionsFrame(ApplyChanges(files, apply, history[n]), apply, history[..n]);
    }
  }

  /** Newest-first order: of a history `older + newer` (lower indices first), the
      revisions of `newer` are applied before those of `older`. */
  lemma {:induction false} ApplyRevisionsAppend(files: Files, apply: PatchApply, older: seq<Revision>, newer: seq<Revision>)
    ensures ApplyRevisions(files, apply, older + newer) == ApplyRevisions(ApplyRevisions(files, apply, newer), apply, older)
    decreases |newer|
  {
    if |newer| == 0 {
      assert older + newer == older;
    } else {
      var n := |newer| - 1;
      var h := older + newer;
      var f1 := ApplyChanges(files, apply, newer[n]);
      assert h[|h| - 1] == newer[n];
      assert h[..|h| - 1] == older + newer[..n];
      assert ApplyRevisions(files, apply, h) == ApplyRevisions(f1, apply, older + newer[..n]);
      assert ApplyRevisions(files, apply, newer) == ApplyRevisions(f1, apply, newer[..n]);
      ApplyRevisionsAppend(f1, apply, older, newer[..n]);
    }
  }
}

=== FILE: wrappers.dfy ===
/** Optional values, and the one JavaScript truthiness test the importer applies to
    optional strings. */
module Wrappers {

  /** An absent (`undefined`/`null`) or present value. */
  datatype Option<+T> = None | Some(value: T) {

    /** The value, or `default` when absent (`x || default` for a value that is never falsy). */
    function GetOr(default: T): T {
      match this
      case Some(v) => v
      case None => default
    }
  }

  /** JavaScript truthiness of an optional string: absent and the empty string are
      both falsy. */
  predicate IsTruthy(s: Option<string>) {
    s.Some? && s.value != ""
  }
}
